=== FILE: README.md ===
# Insomnia importer, modelled in Dafny

This project models `pluginHookImport` (`w`), the importer plugin that turns
an Insomnia export into the application's own entities. The plugin works in
these steps:

- It parses the text. Anything that is not a plain object with an array
  `requests` field is "not recognised" (`undefined`).
- It walks the `resources` array. For every workspace resource it builds:
  - the workspace, whose variables come from its base environment;
  - the environments under that base environment;
  - the folders and requests below the workspace, found by a recursive walk
    (`u`) over `parentId` links. Requests get a per-level counter as their
    `sortPriority`.
- `d` rewrites templates from `{{ _.x }}` to `${[x]}` in five request
  fields only: `url`, `body.text`, the bearer `token`, and the basic
  `username` and `password`. Header names and values, `name`, `method` and
  environment variable values are copied as they are.

Modules, one per part of the program:

- `Wrappers`: `Option`, `Result` (`Ok` or `Throw`: every JavaScript exception is one outcome) and `MapResult`, a `map` whose callback may throw.
- `Json`: parsed JSON values, property reads, `===`, truthiness, string coercion, `Object.entries`.
- `Positions`: `filter` and `find` as positions in an array.
- `Template`: the regular-expression rewrite `d`, with a declarative meaning of the pattern and the match the backtracking matcher reports.
- `Resources`: the type predicates `m`, `S`, `O`, `g`, `f` and the `folderId` rule.
- `Entities`: the constructors `N`, `I`, `D`, `_` and the variable mapping `h`.
- `Walk`: the walk `u`, as a pure function returning the plan of what it pushes.
- `Importer`: the loop over workspaces and the entry point `w`.
- `Scenarios`: concrete documents and what the importer makes of them.

Where the code and its documented behaviour disagree, the model follows the code:

- A template keeps the whitespace before its closing braces: `{{ token }}` becomes `${[token ]}`, not `${[token]}`. The group `[^}]+` runs up to the first `}` before `\s*` gets a chance.
- A workspace without a base environment makes the whole import throw. It is not imported with empty variables, because `a.name` is logged before the guard on the next line (see Findings).

## Model

All source paths are in `src-tauri/plugins/insomnia-importer/out/index.js`.

| member | source | states |
|---|---|---|
| Wrappers.MapResult | src-tauri/plugins/insomnia-importer/out/index.js:145 | mapping succeeds exactly when the callback succeeds on every element; the result is then element-wise the callback's values |
| Wrappers.MapResultOk | src-tauri/plugins/insomnia-importer/out/index.js:145 | a map whose callback gives the elements of a list succeeds with that list |
| Json.ReadOptional | src-tauri/plugins/insomnia-importer/out/index.js:52-54 | the guarded read yields undefined on a nullish value and agrees with the plain read everywhere else |
| Json.StrictEq | src-tauri/plugins/insomnia-importer/out/index.js:75 | `===` holds exactly between equal primitives; parsed objects and arrays are never identical |
| Json.LookupFirst | src-tauri/plugins/insomnia-importer/out/index.js:20 | a property is undefined exactly when no member has its key, and otherwise is the value of the first member with that key |
| Json.ToStrNumber | src-tauri/plugins/insomnia-importer/out/index.js:14 | a number coerces to a digit string without leading zeros that denotes it, or, when negative, to a minus sign followed by the digits of its magnitude, again without a leading zero |
| Json.ToStrArray | src-tauri/plugins/insomnia-importer/out/index.js:14 | an array coerces to the comma-separated renderings of its elements, null elements as the empty string, and throws exactly when one element's coercion throws |
| Json.NatToString | src-tauri/plugins/insomnia-importer/out/index.js:41 | the decimal rendering of a number is a digit string without leading zeros that denotes the number |
| Json.Entries | src-tauri/plugins/insomnia-importer/out/index.js:11 | Object.entries throws exactly on undefined and null; an object gives its members; an array gives index key and element for each index; a string gives index key and one-character string for each index; booleans and numbers give nothing |
| Positions.FindFrom | src-tauri/plugins/insomnia-importer/out/index.js:139 | `find` gives the first qualifying position, and nothing exactly when no element qualifies |
| Positions.Filter | src-tauri/plugins/insomnia-importer/out/index.js:136 | `filter` keeps, in array order, the elements at exactly the qualifying positions |
| Positions.FilteredElements | src-tauri/plugins/insomnia-importer/out/index.js:143 | a filtered array holds only qualifying elements, and every qualifying element |
| Positions.FilterNone | src-tauri/plugins/insomnia-importer/out/index.js:143 | filtering an array in which nothing qualifies gives the empty array |
| Template.MatchAtIsPreferred | src-tauri/plugins/insomnia-importer/out/index.js:45 | the computed match exists exactly when the pattern can match at that position; it is one way of matching, and every other way closes at the same `}` and comes later in the matcher's preference order |
| Template.RewriteUnchangedIff | src-tauri/plugins/insomnia-importer/out/index.js:45 | the rewrite changes a string exactly when the pattern matches somewhere in it |
| Template.RewriteLeftmost | src-tauri/plugins/insomnia-importer/out/index.js:45 | the text before the leftmost match is copied, the match becomes `${[` group 2 `]}`, and rewriting resumes after the match |
| Template.NoBracesUnchanged | src-tauri/plugins/insomnia-importer/out/index.js:45 | a string without `{{` is returned unchanged |
| Template.RewriteVal | src-tauri/plugins/insomnia-importer/out/index.js:44-46 | a string stays a string; any other value, undefined included, passes through unchanged |
| Resources.FolderLink | src-tauri/plugins/insomnia-importer/out/index.js:75 | `folderId` is null or the source `parentId`; for a non-null parent it is null exactly when the parent is the workspace id |
| Entities.VariablesOf | src-tauri/plugins/insomnia-importer/out/index.js:37-43 | one enabled variable per entry, in entry order, named by the key and valued by the string coercion; it throws exactly when some coercion throws |
| Entities.Variables | src-tauri/plugins/insomnia-importer/out/index.js:11-15 | it succeeds exactly when `data` is neither missing nor null and every entry's value coerces to a string; then one enabled variable per entry, in order, named by the key and valued by the coercion (for an object, one per member) |
| Entities.NewWorkspace | src-tauri/plugins/insomnia-importer/out/index.js:95-107 | the workspace keeps the source id and name and the given variables; it throws exactly when a timestamp cannot be formatted |
| Entities.NewEnvironment | src-tauri/plugins/insomnia-importer/out/index.js:1-18 | the environment is built exactly when both timestamps format and its `data` gives variables (so it throws when `data` is missing or null); it keeps id and name, belongs to the given workspace and carries those variables |
| Entities.NewFolder | src-tauri/plugins/insomnia-importer/out/index.js:108-121 | the folder keeps id and name, belongs to the workspace, and its `folderId` follows the nesting rule |
| Entities.BodyOf | src-tauri/plugins/insomnia-importer/out/index.js:50-55 | a GraphQL MIME type gives `graphql`, a JSON one `application/json`, both with the rewritten `body.text`; any other gives null type and body |
| Entities.AuthenticationOf | src-tauri/plugins/insomnia-importer/out/index.js:56-69 | it throws exactly when `authentication` is missing or null; `bearer` gives the rewritten token, `basic` the rewritten credentials, any other type a null type and no credentials |
| Entities.Headers | src-tauri/plugins/insomnia-importer/out/index.js:85-91 | missing headers give none; a non-array or a null header throws; otherwise the mapped headers are filtered in order, dropping exactly those whose name and value are both "" |
| Entities.NewRequest | src-tauri/plugins/insomnia-importer/out/index.js:47-94 | the request is built exactly when `authentication` is present and not null, both timestamps format, and the headers are well formed; it keeps id, name and method, rewrites the url, belongs to the workspace, follows the nesting rule, carries the given sort priority and the body, authentication and header classifications |
| Walk.WalkValid | src-tauri/plugins/insomnia-importer/out/index.js:146-151 | the walk pushes only folders and requests |
| Walk.WalkNumbered | src-tauri/plugins/insomnia-importer/out/index.js:146-151 | each pushed request's counter is the number of requests before it in the array with the same parent |
| Walk.WalkRooted | src-tauri/plugins/insomnia-importer/out/index.js:146-151 | every pushed folder is a child of the start key or of a folder pushed before it; every pushed request is a child of the start key or of a pushed folder |
| Walk.WalkComplete | src-tauri/plugins/insomnia-importer/out/index.js:146-151 | every folder and request child of the start key is pushed, and so are the children of every pushed folder |
| Walk.ReentryThrows | src-tauri/plugins/insomnia-importer/out/index.js:150 | a child folder whose id is already on the call stack makes the walk throw (unbounded recursion) |
| Walk.NullThrows | src-tauri/plugins/insomnia-importer/out/index.js:147 | a null resource makes the walk throw |
| Walk.WalkSucceeds | src-tauri/plugins/insomnia-importer/out/index.js:146-151 | with no null resource and every folder ranked below its parent, the walk succeeds from any key that ranks no higher than the keys on the stack |
| Walk.WalkFromRootSucceeds | src-tauri/plugins/insomnia-importer/out/index.js:146-151 | under the same conditions, the walk from a workspace id succeeds |
| Importer.Environments | src-tauri/plugins/insomnia-importer/out/index.js:143-145 | it succeeds exactly when every environment under the base can be built; then one environment per environment under the base, in order, belonging to the workspace and carrying its own variables |
| Importer.Folders | src-tauri/plugins/insomnia-importer/out/index.js:150 | it succeeds exactly when every pushed folder can be built; then one folder per pushed folder position, with its id, the workspace id and the nesting rule |
| Importer.Requests | src-tauri/plugins/insomnia-importer/out/index.js:150 | it succeeds exactly when every pushed request can be built; then one request per pushed request, with its id, the workspace id, the nesting rule and its counter |
| Importer.ImportWorkspace | src-tauri/plugins/insomnia-importer/out/index.js:137-153 | a workspace without a base environment makes the import throw |
| Importer.ImportWorkspaceOk | src-tauri/plugins/insomnia-importer/out/index.js:137-153 | a workspace imports exactly when it has a base environment whose `data` gives variables, its timestamps format, every environment under the base, every folder and every request the walk pushes can be built, and the walk does not throw |
| Importer.ImportWorkspaceFromParts | src-tauri/plugins/insomnia-importer/out/index.js:139-152 | when the base environment, workspace, environments, walk, folders and requests are each built, the workspace import succeeds with exactly those parts |
| Importer.ImportWorkspaceParts | src-tauri/plugins/insomnia-importer/out/index.js:139-152 | a successful workspace import has a base environment and a walk, and is made of the workspace, environments, folders and requests built from them |
| Importer.ImportedEnvironments | src-tauri/plugins/insomnia-importer/out/index.js:139-145 | the base environment is the first environment under the workspace; the workspace carries its variables; the environments are exactly those under the base, in order, each belonging to the workspace |
| Importer.ImportedNesting | src-tauri/plugins/insomnia-importer/out/index.js:146-152 | every folder belongs to the workspace and its `folderId` is null or an earlier folder's id; every request belongs to the workspace and its `folderId` is null or a folder's id |
| Importer.ImportedPriorities | src-tauri/plugins/insomnia-importer/out/index.js:146-152 | every imported request's sort priority is the number of requests before it in the array with the same parent |
| Importer.ImportedEverything | src-tauri/plugins/insomnia-importer/out/index.js:146-152 | every folder and request that is a child of the workspace or of an imported folder is imported |
| Importer.NullResourceThrows | src-tauri/plugins/insomnia-importer/out/index.js:147 | a null anywhere in `resources` fails every workspace import |
| Importer.SelfNestedThrows | src-tauri/plugins/insomnia-importer/out/index.js:146-152 | a folder under the workspace with the workspace's own id makes the import throw |
| Positions.Flatten | src-tauri/plugins/insomnia-importer/out/index.js:137-152 | concatenated lists hold exactly the elements of the lists |
| Positions.FlattenSnoc | src-tauri/plugins/insomnia-importer/out/index.js:137-152 | pushing one more list's elements appends them after all earlier ones |
| Importer.Gather | src-tauri/plugins/insomnia-importer/out/index.js:130-153 | one workspace per loop iteration, in order; the environments, folders and requests are those of the iterations, concatenated in iteration order |
| Importer.ImportedSlices | src-tauri/plugins/insomnia-importer/out/index.js:136-153 | a successful loop imports every workspace resource and its result is the gathering of those imports, in array order |
| Importer.ImportedInOrder | src-tauri/plugins/insomnia-importer/out/index.js:136-153 | the imported environments, folders and requests are each workspace's own lists, concatenated in the order of the workspace resources |
| Importer.ImportResourcesFromSlices | src-tauri/plugins/insomnia-importer/out/index.js:136-153 | when every workspace resource imports, the loop succeeds and gathers those imports in array order |
| Importer.ImportResources | src-tauri/plugins/insomnia-importer/out/index.js:136-153 | the loop succeeds exactly when every workspace resource imports |
| Importer.ImportedWorkspaces | src-tauri/plugins/insomnia-importer/out/index.js:136-141 | one workspace per workspace resource, in array order, each the import of that resource |
| Importer.GatherLinked | src-tauri/plugins/insomnia-importer/out/index.js:137-153 | slices whose references are internally consistent gather into a bundle whose references are consistent |
| Importer.BundleLinked | src-tauri/plugins/insomnia-importer/out/index.js:136-159 | in an imported bundle every environment, folder and request belongs to one of its workspaces, and every non-null `folderId` is one of its folders' ids |
| Importer.PluginHookImport | src-tauri/plugins/insomnia-importer/out/index.js:122-160 | unparseable text, a non-object, or a missing or non-array `requests` is not recognised; a recognised document without an array `resources` throws; otherwise the outcome is that of the loop |
| Importer.ImportWorkspaceGuarded | src-tauri/plugins/insomnia-importer/out/index.js:139-143 | with the guards honoured, a workspace with a base environment imports as before, and one without gets no variables |
| Importer.NoOrphans | src-tauri/plugins/insomnia-importer/out/index.js:143 | with no environment lacking a `parentId`, the guarded lookup imports no environments |
| Importer.GuardedBareWorkspace | src-tauri/plugins/insomnia-importer/out/index.js:139-143 | a workspace without environments or children throws as written, but imports as a bare workspace with the guards honoured |
| Scenarios.ScopedPlaceholder | src-tauri/plugins/insomnia-importer/out/index.js:45 | `{{ _.u }}/x` becomes `${[u ]}/x` |
| Scenarios.PlainPlaceholder | src-tauri/plugins/insomnia-importer/out/index.js:45 | `{{ token }}` becomes `${[token ]}` |
| Scenarios.NonStringsPassThrough | src-tauri/plugins/insomnia-importer/out/index.js:44-46 | a number and undefined pass through the rewrite |
| Scenarios.VariablesOfData | src-tauri/plugins/insomnia-importer/out/index.js:37-43 | `{"a":"1","b":2}` gives the enabled variables a = "1" and b = "2" |
| Scenarios.HeaderFiltering | src-tauri/plugins/insomnia-importer/out/index.js:85-91 | of an empty header and a disabled header `X`, only the disabled one is kept, with enabled false |
| Scenarios.BearerAuthentication | src-tauri/plugins/insomnia-importer/out/index.js:59-63 | a bearer token `{{ t }}` becomes the token `${[t ]}` |
| Scenarios.OtherAuthentication | src-tauri/plugins/insomnia-importer/out/index.js:59-69 | the authentication type `none` gives no type and no credentials |
| Scenarios.SortPriorities | src-tauri/plugins/insomnia-importer/out/index.js:146-151 | under workspace W with children request A, folder G, request B, and request C in G, the walk pushes G, then A with 0, C with 0 and B with 1 |
| Scenarios.SelfParentedFolder | src-tauri/plugins/insomnia-importer/out/index.js:146-151 | a folder whose id and parent are both the workspace id makes the walk throw |
| Scenarios.ExportWalk | src-tauri/plugins/insomnia-importer/out/index.js:146-151 | in an export with workspace W, base environment E, sub-environment S, folder G in W and request R in G, the walk from W pushes G and then R with counter 0 |
| Scenarios.ExportSlice | src-tauri/plugins/insomnia-importer/out/index.js:137-153 | that workspace imports as W with E's (empty) variables, the environment S, the folder G with a null `folderId`, and the request R in G with priority 0 and no authentication type |
| Scenarios.FullExport | src-tauri/plugins/insomnia-importer/out/index.js:122-160 | the text that parses to that export is imported as the bundle of exactly that workspace, environment, folder and request |
| Scenarios.WorkspaceWithoutEnvironment | src-tauri/plugins/insomnia-importer/out/index.js:139-143 | a lone workspace resource throws as written, and imports as a bare workspace with the guards honoured |

## Left out

- `console.log` (lines 3, 49, 97, 110, 138-144) writes diagnostics only. The model keeps just its effect at lines 140 and 142: reading `name` of a missing base environment throws.
- Date handling (`new Date(...)`, `Date.now()`, `toISOString()`, removing the `Z`) is host behaviour. It is the `Clock` parameter: one current-time string and a formatting function that may fail.
- `JSON.parse` is host behaviour. It is the `parse` parameter of `Host`. An object's members are taken in the order `Object.entries` reports them, and their keys are assumed distinct, as the parser leaves them.
- Numbers are integers. Fractions, exponents and the exponent form of very large numbers under string coercion are not modelled.
- Json.NatToString: renders every digit of an integer. JavaScript holds numbers as doubles and renders those above 2^53 with the shortest digits that round-trip, so `${2**60}` is "1152921504606847000"; the model does not round.
- Characters are Unicode scalar values. A lone surrogate in a JSON string cannot be represented.
- Json.Entries: gives a string one entry per Unicode scalar value. JavaScript gives one per UTF-16 code unit, so a character outside the Basic Multilingual Plane yields two entries there, one per surrogate half.
- The walk throws in two cases: a null resource (its `parentId` read), and unbounded recursion, where a folder re-enters a key already on the call stack. A finite but very deep tree that would overflow the JavaScript stack is imported.
- Walk.WalkSucceeds: its success condition (folders ranked below their parents) is sufficient, not necessary. It also rules out folder cycles the walk never reaches. Exactly when the walk succeeds follows from `NullThrows`, `ReentryThrows` and the walk's definition together.
- The constant `model` discriminator fields (`'workspace'`, `'environment'`, `'folder'`, `'http_request'`) are not stored, because they do not depend on the input.
- The final `filter(Boolean)` passes (lines 155-157) are the identity: every pushed entity is an object. The model does not apply them.
- Every exception is the single outcome `Throw`. The model does not say which error or which line raised it.
- The model computes the walk's plan before building the entities, while the source builds them as it walks. Any exception aborts the whole call, so the outcome is the same.
- Walk.WalkRooted: states that a folder's parent folder is pushed before it, and that every request's parent folder is pushed. It does not state the full depth-first order, where a folder's descendants come before the folder's later siblings. The walk's definition has that order, but no lemma states it.
- The model has no error for a workspace with several base environments and no guard for a missing `resources` array, because the code has neither: the first base environment wins and a missing array throws.

## Findings

| source | as written | input that shows it | evidently intended | confidence | as-written member | corrected member |
|---|---|---|---|---|---|---|
| src-tauri/plugins/insomnia-importer/out/index.js:140-143 | the base environment's `name` is logged before the `a ? h(a.data) : []` guard, so a workspace without a base environment throws and the guard never takes its empty branch | resources `[{"_type":"workspace","_id":"W","parentId":""}]` | the workspace is imported with no variables; the environments are those without a `parentId` (the `a == null ? void 0 : a._id` guard) | high; not executed | Importer.ImportWorkspace, Scenarios.WorkspaceWithoutEnvironment | Importer.ImportWorkspaceGuarded, Importer.GuardedBareWorkspace |

`Importer.PluginHookImport` keeps the behaviour as written, because that is
what the plugin does. The guarded variant stands beside it and states what
the guards are for.

=== FILE: entities.dfy ===
/** The application's entities and the constructors that build them from
    source resources: `N` (workspace), `I` (environment), `D` (folder) and
    `_` (request), with the variable mapping `h` they share. */
module Entities {
  import opened Wrappers
  import opened Json
  import opened Positions
  import opened Template
  import opened Resources

  /** The host clock. `now` is the current instant in the stored format;
      `format(v)` is `new Date(v).toISOString()` without its `Z`, or None
      when the date is invalid and toISOString throws a RangeError. */
  datatype Clock = Clock(now: string, format: Json -> Option<string>)

  /** `new Date(v ?? Date.now()).toISOString().replace('Z', '')` */
  function Timestamp(v: Val, clock: Clock): (r: Result<string>)
    ensures IsNullish(v) ==> r == Ok(clock.now)
    ensures !IsNullish(v) ==> (r.Throw? <==> clock.format(v.value).None?)
  {
    if IsNullish(v) then Ok(clock.now)
    else
      match clock.format(v.value)
      case Some(t) => Ok(t)
      case None => Throw
  }

  datatype Variable = Variable(enabled: bool, name: string, value: string)

  /** One enabled variable per entry, named by its key, valued by the
      entry's string coercion. */
  function VariablesOf(entries: seq<(string, Json)>): (r: Result<seq<Variable>>)
    ensures r.Ok? <==> forall i :: 0 <= i < |entries| ==> ToStr(entries[i].1).Ok?
    ensures r.Ok? ==> |r.value| == |entries|
    ensures r.Ok? ==> forall i :: 0 <= i < |entries| ==>
              r.value[i] == Variable(true, entries[i].0, ToStr(entries[i].1).value)
  {
    if |entries| == 0 then Ok([])
    else
      var rest := VariablesOf(entries[1..]);
      assert forall i :: 1 <= i < |entries| ==> entries[i] == entries[1..][i - 1];
      match ToStr(entries[0].1)
      case Throw => Throw
      case Ok(v) =>
        match rest
        case Throw => Throw
        case Ok(vs) => Ok([Variable(true, entries[0].0, v)] + vs)
  }

  /** `h(data)`: `Object.entries(data).map(...)`. The variables of an
      object are named by its keys, in order, and every one is enabled; a
      missing or null `data` throws. */
  function Variables(data: Val): (r: Result<seq<Variable>>)
    ensures IsNullish(data) ==> r.Throw?
    ensures r.Ok? <==> !IsNullish(data) && forall i :: 0 <= i < |Entries(data).value| ==> ToStr(Entries(data).value[i].1).Ok?
    ensures r.Ok? ==>
              var es := Entries(data).value;
              && |r.value| == |es|
              && forall i :: 0 <= i < |es| ==>
                   r.value[i].enabled && r.value[i].name == es[i].0 && Ok(r.value[i].value) == ToStr(es[i].1)
    ensures data.Some? && data.value.JObject? && r.Ok? ==>
              var ms := data.value.members;
              && |r.value| == |ms|
              && forall i :: 0 <= i < |ms| ==>
                   r.value[i].enabled && r.value[i].name == ms[i].0 && Ok(r.value[i].value) == ToStr(ms[i].1)
  {
    var entries :- Entries(data);
    VariablesOf(entries)
  }

  datatype Workspace = Workspace(id: Val, createdAt: string, updatedAt: string, name: Val, variables: seq<Variable>)

  datatype Environment = Environment(
    id: Val, createdAt: string, updatedAt: string, workspaceId: Val, name: Val, variables: seq<Variable>)

  datatype Folder = Folder(id: Val, createdAt: string, updatedAt: string, folderId: Val, workspaceId: Val, name: Val)

  datatype Header = Header(enabled: bool, name: Val, value: Val)

  datatype Authentication = NoAuthentication | Bearer(token: Val) | Basic(username: Val, password: Val)

  datatype Request = Request(
    id: Val, createdAt: string, updatedAt: string, workspaceId: Val, folderId: Val, sortPriority: nat,
    name: Val, url: Val, body: Val, bodyType: Option<string>,
    authentication: Authentication, authenticationType: Option<string>,
    httpMethod: Val, headers: seq<Header>)

  /** `N`: the workspace with the variables of its base environment. */
  function NewWorkspace(e: Json, variables: seq<Variable>, clock: Clock): (r: Result<Workspace>)
    ensures r.Ok? <==> Timestamp(Get(e, "created"), clock).Ok? && Timestamp(Get(e, "updated"), clock).Ok?
    ensures r.Ok? ==> r.value.id == Id(e) && r.value.name == Get(e, "name") && r.value.variables == variables
  {
    var createdAt :- Timestamp(Get(e, "created"), clock);
    var updatedAt :- Timestamp(Get(e, "updated"), clock);
    Ok(Workspace(Id(e), createdAt, updatedAt, Get(e, "name"), variables))
  }

  /** `I`: an environment of workspace `workspaceId`. */
  function NewEnvironment(e: Json, workspaceId: Val, clock: Clock): (r: Result<Environment>)
    ensures IsNullish(Get(e, "data")) ==> r.Throw?
    ensures r.Ok? <==> && Timestamp(Get(e, "created"), clock).Ok? && Timestamp(Get(e, "updated"), clock).Ok?
                       && Variables(Get(e, "data")).Ok?
    ensures r.Ok? ==> && r.value.id == Id(e) && r.value.workspaceId == workspaceId
                      && r.value.name == Get(e, "name")
                      && Variables(Get(e, "data")) == Ok(r.value.variables)
  {
    var createdAt :- Timestamp(Get(e, "created"), clock);
    var updatedAt :- Timestamp(Get(e, "updated"), clock);
    var variables :- Variables(Get(e, "data"));
    Ok(Environment(Id(e), createdAt, updatedAt, workspaceId, Get(e, "name"), variables))
  }

  /** `D`: a folder of workspace `workspaceId`. */
  function NewFolder(e: Json, workspaceId: Val, clock: Clock): (r: Result<Folder>)
    ensures r.Ok? <==> Timestamp(Get(e, "created"), clock).Ok? && Timestamp(Get(e, "updated"), clock).Ok?
    ensures r.Ok? ==> && r.value.id == Id(e) && r.value.workspaceId == workspaceId
                      && r.value.folderId == FolderLink(Parent(e), workspaceId)
                      && r.value.name == Get(e, "name")
  {
    var createdAt :- Timestamp(Get(e, "created"), clock);
    var updatedAt :- Timestamp(Get(e, "updated"), clock);
    Ok(Folder(Id(e), createdAt, updatedAt, FolderLink(Parent(e), workspaceId), workspaceId, Get(e, "name")))
  }

  /** The body classification: a GraphQL or JSON `body.mimeType` keeps the
      rewritten `body.text`; anything else gives a null type and body. */
  function BodyOf(e: Json): (r: (Option<string>, Val))
    ensures var mime := ReadOptional(Get(e, "body"), "mimeType");
            && (r.0 == Some("graphql") <==> mime == Str("application/graphql"))
            && (r.0 == Some("application/json") <==> mime == Str("application/json"))
            && (r.0.None? <==> mime != Str("application/graphql") && mime != Str("application/json"))
            && (r.0.None? ==> r.1 == Null)
            && (r.0.Some? ==> r.1 == RewriteVal(ReadOptional(Get(e, "body"), "text")))
  {
    var mime := ReadOptional(Get(e, "body"), "mimeType");
    if mime == Str("application/graphql") then (Some("graphql"), RewriteVal(ReadOptional(Get(e, "body"), "text")))
    else if mime == Str("application/json") then (Some("application/json"), RewriteVal(ReadOptional(Get(e, "body"), "text")))
    else (None, Null)
  }

  /** The authentication classification: `e.authentication.type` (which
      throws when `authentication` is missing or null) selects a bearer
      token or basic credentials, rewritten; any other type gives a null
      type and no credentials. */
  function AuthenticationOf(e: Json): (r: Result<(Option<string>, Authentication)>)
    ensures r.Throw? <==> IsNullish(Get(e, "authentication"))
    ensures r.Ok? ==>
              var a := Get(e, "authentication");
              var kind := Get(a.value, "type");
              && (r.value.0 == Some("bearer") <==> kind == Str("bearer"))
              && (r.value.0 == Some("basic") <==> kind == Str("basic"))
              && (r.value.0.None? <==> r.value.1 == NoAuthentication)
              && (kind == Str("bearer") ==> r.value.1 == Bearer(RewriteVal(Get(a.value, "token"))))
              && (kind == Str("basic") ==>
                    r.value.1 == Basic(RewriteVal(Get(a.value, "username")), RewriteVal(Get(a.value, "password"))))
              && (kind != Str("bearer") && kind != Str("basic") ==> r.value == (None, NoAuthentication))
  {
    var a := Get(e, "authentication");
    var kind :- Read(a, "type");
    if kind == Str("bearer") then Ok((Some("bearer"), Bearer(RewriteVal(Get(a.value, "token")))))
    else if kind == Str("basic") then
      Ok((Some("basic"), Basic(RewriteVal(Get(a.value, "username")), RewriteVal(Get(a.value, "password")))))
    else Ok((None, NoAuthentication))
  }

  /** The header a source header becomes: destructuring reads `name`,
      `value` and `disabled`, which a primitive does not have. */
  function HeaderOf(h: Json): Header {
    Header(!Truthy(Get(h, "disabled")), Get(h, "name"), Get(h, "value"))
  }

  /** The filter keeps a header unless both its name and value are "". */
  predicate Kept(h: Header) {
    !(StrictEq(h.name, Str("")) && StrictEq(h.value, Str("")))
  }

  /** `(e.headers ?? []).map(...).filter(...)`. Only an array has `map`;
      destructuring a null element throws. */
  function Headers(v: Val): (r: Result<seq<Header>>)
    ensures IsNullish(v) ==> r == Ok([])
    ensures r.Throw? <==> !IsNullish(v) && (!v.value.JArray? || JNull in v.value.items)
    ensures r.Ok? && !IsNullish(v) ==>
              IsFiltered(r.value, seq(|v.value.items|, i requires 0 <= i < |v.value.items| => HeaderOf(v.value.items[i])), Kept)
    ensures r.Ok? ==> forall h :: h in r.value ==> Kept(h)
  {
    if IsNullish(v) then Ok([])
    else if !v.value.JArray? || JNull in v.value.items then Throw
    else
      var items := v.value.items;
      Ok(Filter(seq(|items|, i requires 0 <= i < |items| => HeaderOf(items[i])), Kept))
  }

  /** `_`: a request of workspace `workspaceId` with the given sort
      priority. */
  function NewRequest(e: Json, workspaceId: Val, sortPriority: nat, clock: Clock): (r: Result<Request>)
    ensures IsNullish(Get(e, "authentication")) ==> r.Throw?
    ensures r.Ok? <==> && !IsNullish(Get(e, "authentication"))
                       && Timestamp(Get(e, "created"), clock).Ok? && Timestamp(Get(e, "updated"), clock).Ok?
                       && Headers(Get(e, "headers")).Ok?
    ensures r.Ok? ==>
              && r.value.id == Id(e) && r.value.workspaceId == workspaceId
              && r.value.folderId == FolderLink(Parent(e), workspaceId)
              && r.value.sortPriority == sortPriority
              && r.value.name == Get(e, "name") && r.value.httpMethod == Get(e, "method")
              && r.value.url == RewriteVal(Get(e, "url"))
              && (r.value.bodyType, r.value.body) == BodyOf(e)
              && AuthenticationOf(e) == Ok((r.value.authenticationType, r.value.authentication))
              && Headers(Get(e, "headers")) == Ok(r.value.headers)
  {
    var (bodyType, body) := BodyOf(e);
    var auth :- AuthenticationOf(e);
    var createdAt :- Timestamp(Get(e, "created"), clock);
    var updatedAt :- Timestamp(Get(e, "updated"), clock);
    var headers :- Headers(Get(e, "headers"));
    Ok(Request(Id(e), createdAt, updatedAt, workspaceId, FolderLink(Parent(e), workspaceId), sortPriority,
               Get(e, "name"), RewriteVal(Get(e, "url")), body, bodyType,
               auth.1, auth.0, Get(e, "method"), headers))
  }
}

=== FILE: importer.dfy ===
/** `pluginHookImport` (`w`): parse the export, recognise the Insomnia
    shape, and for every workspace resource import the workspace with its
    base environment's variables, the environments under the base
    environment, and the folders and requests below the workspace. */
module Importer {
  import opened Wrappers
  import opened Json
  import opened Positions
  import opened Resources
  import opened Entities
  import opened Walk

  /** What the loop body pushes for one workspace. */
  datatype Slice = Slice(workspace: Workspace, environments: seq<Environment>, folders: seq<Folder>, requests: seq<Request>)

  /** The object `w` returns. */
  datatype Bundle = Bundle(workspaces: seq<Workspace>, requests: seq<Request>, environments: seq<Environment>, folders: seq<Folder>)

  /** The position of a workspace's base environment: the first environment
      in the array whose `parentId` is identical to the workspace id. */
  function BaseEnvironment(res: seq<Json>, workspaceId: Val): Option<nat> {
    FindFrom(res, r => EnvironmentUnder(r, workspaceId), 0)
  }

  /** The environments whose `parentId` is identical to the base
      environment's id. */
  function SubEnvironments(res: seq<Json>, base: Json): seq<Json> {
    Filter(res, r => EnvironmentUnder(r, Id(base)))
  }

  /** The walk below a workspace. The workspace id is the first key on the
      stack. */
  function WorkspacePlan(res: seq<Json>, o: Json): (r: Result<Plan>)
    ensures r.Ok? ==> Valid(res, r.value)
  {
    var w := WalkFrom(res, Id(o), {Id(o)}, 0, 0);
    if w.Throw? then w
    else
      WalkValid(res, Id(o), {Id(o)}, 0, 0);
      w
  }

  /** `l.map(r => I(r, o._id))`: the environments under the base
      environment, in array order. */
  function Environments(res: seq<Json>, base: Json, workspaceId: Val, clock: Clock): (r: Result<seq<Environment>>)
    ensures var subs := SubEnvironments(res, base);
            r.Ok? <==> forall t :: 0 <= t < |subs| ==> NewEnvironment(subs[t], workspaceId, clock).Ok?
    ensures var subs := SubEnvironments(res, base);
            r.Ok? ==> && |r.value| == |subs|
                      && forall t :: 0 <= t < |subs| ==>
                           && r.value[t].id == Id(subs[t]) && r.value[t].workspaceId == workspaceId
                           && Variables(Get(subs[t], "data")) == Ok(r.value[t].variables)
  {
    MapResult(SubEnvironments(res, base), r => NewEnvironment(r, workspaceId, clock))
  }

  /** The folders the walk pushes, built by `D`. */
  function Folders(res: seq<Json>, plan: Plan, workspaceId: Val, clock: Clock): (r: Result<seq<Folder>>)
    requires Valid(res, plan)
    ensures r.Ok? <==> forall t :: 0 <= t < |plan.folders| ==> NewFolder(res[plan.folders[t]], workspaceId, clock).Ok?
    ensures r.Ok? ==> && |r.value| == |plan.folders|
                      && forall t :: 0 <= t < |plan.folders| ==>
                           && r.value[t].id == Id(res[plan.folders[t]]) && r.value[t].workspaceId == workspaceId
                           && r.value[t].folderId == FolderLink(Parent(res[plan.folders[t]]), workspaceId)
  {
    MapResult(Pick(res, plan.folders), r => NewFolder(r, workspaceId, clock))
  }

  /** The requests the walk pushes, built by `_` with their counters. */
  /** The request pushed as `p` can be built. */
  predicate Builds(res: seq<Json>, p: Placed, workspaceId: Val, clock: Clock)
    requires p.at < |res|
  {
    NewRequest(res[p.at], workspaceId, p.priority, clock).Ok?
  }

  function Requests(res: seq<Json>, plan: Plan, workspaceId: Val, clock: Clock): (r: Result<seq<Request>>)
    requires Valid(res, plan)
    ensures r.Ok? <==> forall t :: 0 <= t < |plan.requests| ==> Builds(res, plan.requests[t], workspaceId, clock)
    ensures r.Ok? ==> && |r.value| == |plan.requests|
                      && forall t :: 0 <= t < |plan.requests| ==>
                           var p := plan.requests[t];
                           && r.value[t].id == Id(res[p.at]) && r.value[t].workspaceId == workspaceId
                           && r.value[t].folderId == FolderLink(Parent(res[p.at]), workspaceId)
                           && r.value[t].sortPriority == p.priority
  {
    MapResult(plan.requests, (p: Placed) requires p.at < |res| => NewRequest(res[p.at], workspaceId, p.priority, clock))
  }

  /** The loop body of `w` for workspace `o`. Reading `name` of a missing
      base environment throws, so a workspace without one fails the whole
      import. */
  function ImportWorkspace(res: seq<Json>, o: Json, clock: Clock): (r: Result<Slice>)
    ensures BaseEnvironment(res, Id(o)).None? ==> r.Throw?
  {
    var workspaceId := Id(o);
    match BaseEnvironment(res, workspaceId)
    case None => Throw
    case Some(b) =>
      var base := res[b];
      var variables :- Variables(Get(base, "data"));
      var workspace :- NewWorkspace(o, variables, clock);
      var environments :- Environments(res, base, workspaceId, clock);
      var plan :- WorkspacePlan(res, o);
      var folders :- Folders(res, plan, workspaceId, clock);
      var requests :- Requests(res, plan, workspaceId, clock);
      Ok(Slice(workspace, environments, folders, requests))
  }

  /** The loop body for workspace `o` completes exactly when the workspace
      has a base environment and none of the reads, coercions, date
      conversions and the walk throws. */
  lemma ImportWorkspaceOk(res: seq<Json>, o: Json, clock: Clock)
    ensures ImportWorkspace(res, o, clock).Ok? <==>
              && BaseEnvironment(res, Id(o)).Some?
              && var base := res[BaseEnvironment(res, Id(o)).value];
                 && Variables(Get(base, "data")).Ok?
                 && Timestamp(Get(o, "created"), clock).Ok? && Timestamp(Get(o, "updated"), clock).Ok?
                 && Environments(res, base, Id(o), clock).Ok?
                 && WorkspacePlan(res, o).Ok?
                 && Folders(res, WorkspacePlan(res, o).value, Id(o), clock).Ok?
                 && Requests(res, WorkspacePlan(res, o).value, Id(o), clock).Ok?
  {
  }

  /** The converse of `ImportWorkspaceParts`: parts that are all built
      make the slice of workspace `o`. */
  lemma ImportWorkspaceFromParts(res: seq<Json>, o: Json, clock: Clock, b: nat, variables: seq<Variable>,
                                 workspace: Workspace, environments: seq<Environment>, plan: Plan,
                                 folders: seq<Folder>, requests: seq<Request>)
    requires BaseEnvironment(res, Id(o)) == Some(b)
    requires Variables(Get(res[b], "data")) == Ok(variables)
    requires NewWorkspace(o, variables, clock) == Ok(workspace)
    requires Environments(res, res[b], Id(o), clock) == Ok(environments)
    requires WorkspacePlan(res, o) == Ok(plan)
    requires Folders(res, plan, Id(o), clock) == Ok(folders)
    requires Requests(res, plan, Id(o), clock) == Ok(requests)
    ensures ImportWorkspace(res, o, clock) == Ok(Slice(workspace, environments, folders, requests))
  {
  }

  /** A successful import of workspace `o` is made of the parts above. */
  lemma ImportWorkspaceParts(res: seq<Json>, o: Json, clock: Clock)
    requires ImportWorkspace(res, o, clock).Ok?
    ensures BaseEnvironment(res, Id(o)).Some?
    ensures WorkspacePlan(res, o).Ok? && Valid(res, WorkspacePlan(res, o).value)
    ensures var s := ImportWorkspace(res, o, clock).value;
            var base := res[BaseEnvironment(res, Id(o)).value];
            var plan := WorkspacePlan(res, o).value;
            && Variables(Get(base, "data")) == Ok(s.workspace.variables)
            && s.workspace.id == Id(o) && s.workspace.name == Get(o, "name")
            && Environments(res, base, Id(o), clock) == Ok(s.environments)
            && Folders(res, plan, Id(o), clock) == Ok(s.folders)
            && Requests(res, plan, Id(o), clock) == Ok(s.requests)
  {
    var workspaceId := Id(o);
    var b := BaseEnvironment(res, workspaceId).value;
    var base := res[b];
    var variables := Variables(Get(base, "data")).value;
    var workspace := NewWorkspace(o, variables, clock).value;
    var environments := Environments(res, base, workspaceId, clock).value;
    var plan := WorkspacePlan(res, o).value;
    WalkValid(res, workspaceId, {workspaceId}, 0, 0);
    var folders := Folders(res, plan, workspaceId, clock).value;
    var requests := Requests(res, plan, workspaceId, clock).value;
    assert ImportWorkspace(res, o, clock).value == Slice(workspace, environments, folders, requests);
  }

  /** The workspace and environments of a successful import of workspace
      `o`: the workspace carries the base environment's variables, and
      every environment under the base environment is imported, in array
      order, into the workspace. */
  lemma ImportedEnvironments(res: seq<Json>, o: Json, clock: Clock)
    requires ImportWorkspace(res, o, clock).Ok?
    ensures BaseEnvironment(res, Id(o)).Some?
    ensures var s := ImportWorkspace(res, o, clock).value;
            var base := res[BaseEnvironment(res, Id(o)).value];
            var subs := SubEnvironments(res, base);
            && IsEnvironment(base) && StrictEq(Parent(base), Id(o))
            && s.workspace.id == Id(o) && s.workspace.name == Get(o, "name")
            && Variables(Get(base, "data")) == Ok(s.workspace.variables)
            && |s.environments| == |subs|
            && (forall t :: 0 <= t < |subs| ==>
                  && IsEnvironment(subs[t]) && StrictEq(Parent(subs[t]), Id(base))
                  && s.environments[t].id == Id(subs[t]) && s.environments[t].workspaceId == Id(o)
                  && Variables(Get(subs[t], "data")) == Ok(s.environments[t].variables))
  {
    ImportWorkspaceParts(res, o, clock);
    var base := res[BaseEnvironment(res, Id(o)).value];
    FilteredElements(SubEnvironments(res, base), res, r => EnvironmentUnder(r, Id(base)));
  }

  /** Every folder belongs to the workspace, and its `folderId` is null (a
      child of the workspace) or the id of a folder listed before it. */
  predicate FoldersNested(folders: seq<Folder>, workspaceId: Val) {
    forall t :: 0 <= t < |folders| ==>
      && folders[t].workspaceId == workspaceId
      && (folders[t].folderId == Null || exists u :: 0 <= u < t && folders[t].folderId == folders[u].id)
  }

  /** Every request belongs to the workspace, and its `folderId` is null or
      the id of one of the folders. */
  predicate RequestsNested(requests: seq<Request>, folders: seq<Folder>, workspaceId: Val) {
    forall t :: 0 <= t < |requests| ==>
      && requests[t].workspaceId == workspaceId
      && (requests[t].folderId == Null || exists u :: 0 <= u < |folders| && requests[t].folderId == folders[u].id)
  }

  /** Nesting of a successful import: folders only refer to folders
      imported before them, requests only to imported folders. */
  lemma ImportedNesting(res: seq<Json>, o: Json, clock: Clock)
    requires ImportWorkspace(res, o, clock).Ok?
    ensures var s := ImportWorkspace(res, o, clock).value;
            FoldersNested(s.folders, Id(o)) && RequestsNested(s.requests, s.folders, Id(o))
  {
    ImportWorkspaceParts(res, o, clock);
    WalkRooted(res, Id(o), {Id(o)}, 0, 0);
    var s := ImportWorkspace(res, o, clock).value;
    var plan := WorkspacePlan(res, o).value;
    forall t | 0 <= t < |s.folders|
      ensures s.folders[t].workspaceId == Id(o)
      ensures s.folders[t].folderId == Null || exists u :: 0 <= u < t && s.folders[t].folderId == s.folders[u].id
    {
      FolderNested(res, plan, Id(o), clock, s.folders, t);
    }
    forall t | 0 <= t < |s.requests|
      ensures s.requests[t].workspaceId == Id(o)
      ensures s.requests[t].folderId == Null || exists u :: 0 <= u < |s.folders| && s.requests[t].folderId == s.folders[u].id
    {
      RequestNested(res, plan, Id(o), clock, s.folders, s.requests, t);
    }
  }

  lemma FolderNested(res: seq<Json>, plan: Plan, key: Val, clock: Clock, folders: seq<Folder>, t: nat)
    requires Valid(res, plan) && Rooted(res, plan, key)
    requires Folders(res, plan, key, clock) == Ok(folders) && t < |folders|
    ensures folders[t].workspaceId == key
    ensures folders[t].folderId == Null || exists u :: 0 <= u < t && folders[t].folderId == folders[u].id
  {
    assert FolderRooted(res, plan.folders, t, key);
    var parent := Parent(res[plan.folders[t]]);
    if !StrictEq(parent, key) {
      var u :| 0 <= u < t && StrictEq(parent, Id(res[plan.folders[u]]));
      assert folders[u].id == Id(res[plan.folders[u]]);
    }
  }

  lemma RequestNested(res: seq<Json>, plan: Plan, key: Val, clock: Clock, folders: seq<Folder>, requests: seq<Request>, t: nat)
    requires Valid(res, plan) && Rooted(res, plan, key)
    requires Folders(res, plan, key, clock) == Ok(folders)
    requires Requests(res, plan, key, clock) == Ok(requests) && t < |requests|
    ensures requests[t].workspaceId == key
    ensures requests[t].folderId == Null || exists u :: 0 <= u < |folders| && requests[t].folderId == folders[u].id
  {
    var at := plan.requests[t].at;
    assert RequestRooted(res, plan.folders, at, key);
    var parent := Parent(res[at]);
    if !StrictEq(parent, key) {
      var u :| 0 <= u < |plan.folders| && StrictEq(parent, Id(res[plan.folders[u]]));
      assert folders[u].id == Id(res[plan.folders[u]]);
    }
  }

  /** The requests of a successful import are those of the walk, and each
      request's sort priority is the number of requests before it in the
      array with an identical `parentId`. */
  lemma ImportedPriorities(res: seq<Json>, o: Json, clock: Clock)
    requires ImportWorkspace(res, o, clock).Ok?
    ensures var s := ImportWorkspace(res, o, clock).value;
            var plan := WorkspacePlan(res, o).value;
            && |s.requests| == |plan.requests|
            && forall t :: 0 <= t < |s.requests| ==>
                 var at := plan.requests[t].at;
                 && at < |res| && IsRequest(res[at]) && s.requests[t].id == Id(res[at])
                 && s.requests[t].sortPriority == Siblings(res, Parent(res[at]), at)
  {
    ImportWorkspaceParts(res, o, clock);
    WalkNumbered(res, Id(o), {Id(o)}, 0, 0);
  }

  /** Resource `j` is a child of the workspace or of one of the folders. */
  predicate Below(res: seq<Json>, j: nat, workspaceId: Val, folders: seq<Folder>)
    requires j < |res|
  {
    StrictEq(Parent(res[j]), workspaceId) || exists u :: 0 <= u < |folders| && StrictEq(Parent(res[j]), folders[u].id)
  }

  /** Resource `j`, if a folder, is among the folders and, if a request,
      among the requests. */
  predicate Collected(res: seq<Json>, j: nat, folders: seq<Folder>, requests: seq<Request>)
    requires j < |res|
  {
    && (IsFolder(res[j]) ==> exists u :: 0 <= u < |folders| && folders[u].id == Id(res[j]))
    && (IsRequest(res[j]) ==> exists t :: 0 <= t < |requests| && requests[t].id == Id(res[j]))
  }

  /** Every folder and request below the workspace is imported: the
      children of the workspace, and the children of every imported
      folder. */
  lemma ImportedEverything(res: seq<Json>, o: Json, clock: Clock)
    requires ImportWorkspace(res, o, clock).Ok?
    ensures var s := ImportWorkspace(res, o, clock).value;
            forall j :: 0 <= j < |res| && Below(res, j, Id(o), s.folders) ==> Collected(res, j, s.folders, s.requests)
  {
    ImportWorkspaceParts(res, o, clock);
    WalkComplete(res, Id(o), {Id(o)}, 0, 0);
    var s := ImportWorkspace(res, o, clock).value;
    var plan := WorkspacePlan(res, o).value;
    forall j | 0 <= j < |res| && Below(res, j, Id(o), s.folders)
      ensures Collected(res, j, s.folders, s.requests)
    {
      ResourceImported(res, plan, Id(o), clock, s.folders, s.requests, j);
    }
  }

  lemma ResourceImported(res: seq<Json>, plan: Plan, key: Val, clock: Clock, folders: seq<Folder>, requests: seq<Request>, j: nat)
    requires Valid(res, plan) && Covers(res, plan, key, 0) && Closed(res, plan)
    requires Folders(res, plan, key, clock) == Ok(folders)
    requires Requests(res, plan, key, clock) == Ok(requests)
    requires j < |res| && Below(res, j, key, folders)
    ensures Collected(res, j, folders, requests)
  {
    var parent := key;
    if !StrictEq(Parent(res[j]), key) {
      var u :| 0 <= u < |folders| && StrictEq(Parent(res[j]), folders[u].id);
      parent := Id(res[plan.folders[u]]);
      assert plan.folders[u] in plan.folders;
    }
    assert Covers(res, plan, parent, 0) && StrictEq(Parent(res[j]), parent);
    if IsFolder(res[j]) {
      assert j in plan.folders;
      FolderCollected(res, plan, key, clock, folders, j);
    }
    if IsRequest(res[j]) {
      assert j in RequestPositions(plan);
      RequestCollected(res, plan, key, clock, requests, j);
    }
  }

  lemma FolderCollected(res: seq<Json>, plan: Plan, key: Val, clock: Clock, folders: seq<Folder>, j: nat)
    requires Valid(res, plan) && Folders(res, plan, key, clock) == Ok(folders)
    requires j < |res| && j in plan.folders
    ensures exists u :: 0 <= u < |folders| && folders[u].id == Id(res[j])
  {
    var u :| 0 <= u < |plan.folders| && plan.folders[u] == j;
    assert folders[u].id == Id(res[j]);
  }

  lemma RequestCollected(res: seq<Json>, plan: Plan, key: Val, clock: Clock, requests: seq<Request>, j: nat)
    requires Valid(res, plan) && Requests(res, plan, key, clock) == Ok(requests)
    requires j < |res| && j in RequestPositions(plan)
    ensures exists t :: 0 <= t < |requests| && requests[t].id == Id(res[j])
  {
    var p :| p in plan.requests && p.at == j;
    var t :| 0 <= t < |plan.requests| && plan.requests[t] == p;
    RequestAt(res, plan, key, clock, requests, t);
  }

  /** The request built for the `t`-th pushed request has that resource's id. */
  lemma RequestAt(res: seq<Json>, plan: Plan, key: Val, clock: Clock, requests: seq<Request>, t: nat)
    requires Valid(res, plan) && Requests(res, plan, key, clock) == Ok(requests)
    requires t < |plan.requests|
    ensures t < |requests| && requests[t].id == Id(res[plan.requests[t].at])
  {
  }

  /** A null resource fails every workspace import. */
  lemma NullResourceThrows(res: seq<Json>, o: Json, clock: Clock, j: nat)
    requires j < |res| && res[j] == JNull
    ensures ImportWorkspace(res, o, clock).Throw?
  {
    NullThrows(res, Id(o), {Id(o)}, 0, 0, j);
  }

  /** A folder below the workspace whose id is identical to the workspace
      id makes `u` call itself forever: the import throws. */
  lemma SelfNestedThrows(res: seq<Json>, o: Json, clock: Clock, j: nat)
    requires j < |res| && IsFolder(res[j]) && StrictEq(Parent(res[j]), Id(o)) && StrictEq(Id(res[j]), Id(o))
    ensures ImportWorkspace(res, o, clock).Throw?
  {
    ReentryThrows(res, Id(o), {Id(o)}, 0, 0, j);
  }

  /** The loop body as its guards `a ? h(a.data) : []` and
      `a == null ? void 0 : a._id` intend it: a workspace without a base
      environment gets no variables, and the environments "under" the
      missing base are those without a `parentId`. Only the logging of
      `a.name` stands in the way in `ImportWorkspace`. */
  function ImportWorkspaceGuarded(res: seq<Json>, o: Json, clock: Clock): (r: Result<Slice>)
    ensures BaseEnvironment(res, Id(o)).Some? ==> r == ImportWorkspace(res, o, clock)
    ensures BaseEnvironment(res, Id(o)).None? && r.Ok? ==>
              r.value.workspace.variables == [] && r.value.workspace.id == Id(o)
  {
    var workspaceId := Id(o);
    match BaseEnvironment(res, workspaceId)
    case Some(_) => ImportWorkspace(res, o, clock)
    case None =>
      var workspace :- NewWorkspace(o, [], clock);
      var environments :- OrphanEnvironments(res, workspaceId, clock);
      var plan :- WorkspacePlan(res, o);
      var folders :- Folders(res, plan, workspaceId, clock);
      var requests :- Requests(res, plan, workspaceId, clock);
      Ok(Slice(workspace, environments, folders, requests))
  }

  /** An environment without a `parentId`. */
  predicate Orphan(r: Json) {
    EnvironmentUnder(r, None)
  }

  /** The environments without a `parentId`, imported into the workspace. */
  function OrphanEnvironments(res: seq<Json>, workspaceId: Val, clock: Clock): Result<seq<Environment>> {
    MapResult(Filter(res, Orphan), r => NewEnvironment(r, workspaceId, clock))
  }

  /** Without environments lacking a `parentId` there is nothing to import. */
  lemma NoOrphans(res: seq<Json>, workspaceId: Val, clock: Clock)
    requires forall i :: 0 <= i < |res| ==> !Orphan(res[i])
    ensures OrphanEnvironments(res, workspaceId, clock) == Ok([])
  {
    FilterNone(res, Orphan);
  }

  /** Under the guards, a workspace without a base environment, without
      parent-less environments and without children imports as a bare
      workspace instead of failing. */
  lemma GuardedBareWorkspace(res: seq<Json>, o: Json, clock: Clock)
    requires BaseEnvironment(res, Id(o)).None?
    requires forall i :: 0 <= i < |res| ==> !Orphan(res[i])
    requires WorkspacePlan(res, o) == Ok(Plan([], [])) && NewWorkspace(o, [], clock).Ok?
    ensures ImportWorkspace(res, o, clock).Throw?
    ensures ImportWorkspaceGuarded(res, o, clock) == Ok(Slice(NewWorkspace(o, [], clock).value, [], [], []))
  {
    NoOrphans(res, Id(o), clock);
    var plan := Plan([], []);
    assert Folders(res, plan, Id(o), clock) == Ok([]);
    assert Requests(res, plan, Id(o), clock) == Ok([]);
  }

  function EnvironmentLists(slices: seq<Slice>): seq<seq<Environment>> {
    seq(|slices|, t requires 0 <= t < |slices| => slices[t].environments)
  }

  function FolderLists(slices: seq<Slice>): seq<seq<Folder>> {
    seq(|slices|, t requires 0 <= t < |slices| => slices[t].folders)
  }

  function RequestLists(slices: seq<Slice>): seq<seq<Request>> {
    seq(|slices|, t requires 0 <= t < |slices| => slices[t].requests)
  }

  /** The pushes of all loop iterations, in order: one workspace per
      iteration, and each iteration's environments, folders and requests
      appended after those of the iterations before it. */
  function Gather(slices: seq<Slice>): (b: Bundle)
    ensures |b.workspaces| == |slices|
    ensures forall t :: 0 <= t < |slices| ==> b.workspaces[t] == slices[t].workspace
    ensures b.environments == Flatten(EnvironmentLists(slices))
    ensures b.folders == Flatten(FolderLists(slices))
    ensures b.requests == Flatten(RequestLists(slices))
  {
    if |slices| == 0 then Bundle([], [], [], [])
    else
      var init := slices[..|slices| - 1];
      var b := Gather(init);
      var s := slices[|slices| - 1];
      assert forall t :: 0 <= t < |slices| - 1 ==> init[t] == slices[t];
      assert EnvironmentLists(slices) == EnvironmentLists(init) + [s.environments];
      assert FolderLists(slices) == FolderLists(init) + [s.folders];
      assert RequestLists(slices) == RequestLists(init) + [s.requests];
      FlattenSnoc(EnvironmentLists(init), s.environments);
      FlattenSnoc(FolderLists(init), s.folders);
      FlattenSnoc(RequestLists(init), s.requests);
      Bundle(b.workspaces + [s.workspace], b.requests + s.requests, b.environments + s.environments, b.folders + s.folders)
  }

  /** The loop of `w` over the workspace resources, in array order. */
  function ImportResources(res: seq<Json>, clock: Clock): (r: Result<Bundle>)
    ensures var ws := Filter(res, IsWorkspace);
            r.Ok? <==> forall t :: 0 <= t < |ws| ==> ImportWorkspace(res, ws[t], clock).Ok?
  {
    var slices :- MapResult(Filter(res, IsWorkspace), o => ImportWorkspace(res, o, clock));
    Ok(Gather(slices))
  }

  /** One workspace per workspace resource, in array order, each the
      import of that resource. */
  lemma ImportedWorkspaces(res: seq<Json>, clock: Clock)
    requires ImportResources(res, clock).Ok?
    ensures var b := ImportResources(res, clock).value;
            var ws := Filter(res, IsWorkspace);
            && |b.workspaces| == |ws|
            && forall t :: 0 <= t < |ws| ==>
                 IsWorkspace(ws[t]) && ImportWorkspace(res, ws[t], clock).Ok? &&
                 b.workspaces[t] == ImportWorkspace(res, ws[t], clock).value.workspace
  {
    ImportedSlices(res, clock);
    var ws := Filter(res, IsWorkspace);
    FilteredElements(ws, res, IsWorkspace);
    var slices := SlicesOf(res, ws, clock);
    var b := Gather(slices);
    assert ImportResources(res, clock).value == b;
    forall t | 0 <= t < |ws|
      ensures b.workspaces[t] == ImportWorkspace(res, ws[t], clock).value.workspace
    {
      assert b.workspaces[t] == slices[t].workspace;
    }
  }

  /** The imports of the workspace resources `ws`, in order. */
  function SlicesOf(res: seq<Json>, ws: seq<Json>, clock: Clock): (slices: seq<Slice>)
    requires forall t :: 0 <= t < |ws| ==> ImportWorkspace(res, ws[t], clock).Ok?
    ensures |slices| == |ws| && forall t :: 0 <= t < |ws| ==> ImportWorkspace(res, ws[t], clock) == Ok(slices[t])
  {
    MapResult(ws, o => ImportWorkspace(res, o, clock)).value
  }

  /** The bundle's environments, folders and requests are those of the
      workspace imports, concatenated in the order of the workspace
      resources, each workspace's own in the order it pushed them. */
  lemma ImportedInOrder(res: seq<Json>, clock: Clock)
    requires ImportResources(res, clock).Ok?
    ensures var ws := Filter(res, IsWorkspace);
            && (forall t :: 0 <= t < |ws| ==> ImportWorkspace(res, ws[t], clock).Ok?)
            && var slices := SlicesOf(res, ws, clock);
               var b := ImportResources(res, clock).value;
               && b.environments == Flatten(EnvironmentLists(slices))
               && b.folders == Flatten(FolderLists(slices))
               && b.requests == Flatten(RequestLists(slices))
  {
    ImportedSlices(res, clock);
  }

  /** A successful loop gathers the imports of the workspace resources. */
  lemma ImportedSlices(res: seq<Json>, clock: Clock)
    requires ImportResources(res, clock).Ok?
    ensures var ws := Filter(res, IsWorkspace);
            && (forall t :: 0 <= t < |ws| ==> ImportWorkspace(res, ws[t], clock).Ok?)
            && ImportResources(res, clock).value == Gather(SlicesOf(res, ws, clock))
  {
    var ws := Filter(res, IsWorkspace);
    assert ImportResources(res, clock) == Ok(Gather(SlicesOf(res, ws, clock)));
  }

  /** The converse of `ImportedSlices`: when every workspace resource
      imports, the loop gathers those imports. */
  lemma ImportResourcesFromSlices(res: seq<Json>, clock: Clock, slices: seq<Slice>)
    requires var ws := Filter(res, IsWorkspace);
             |slices| == |ws| && forall t :: 0 <= t < |ws| ==> ImportWorkspace(res, ws[t], clock) == Ok(slices[t])
    ensures ImportResources(res, clock) == Ok(Gather(slices))
  {
    var ws := Filter(res, IsWorkspace);
    assert ImportResources(res, clock).Ok?;
    ImportedSlices(res, clock);
    SlicesAre(res, ws, clock, slices);
  }

  /** The slices of workspaces that import to `slices` are `slices`. */
  lemma SlicesAre(res: seq<Json>, ws: seq<Json>, clock: Clock, slices: seq<Slice>)
    requires |slices| == |ws| && forall t :: 0 <= t < |ws| ==> ImportWorkspace(res, ws[t], clock) == Ok(slices[t])
    ensures SlicesOf(res, ws, clock) == slices
  {
    var s := SlicesOf(res, ws, clock);
    assert forall t :: 0 <= t < |ws| ==> s[t] == slices[t];
  }

  /** The ids of a bundle's workspaces. */
  function WorkspaceIds(b: Bundle): set<Val> {
    set w | w in b.workspaces :: w.id
  }

  /** The ids of a bundle's folders. */
  function FolderIds(b: Bundle): set<Val> {
    set f | f in b.folders :: f.id
  }

  /** Everything in one slice points at the slice's workspace, and folders
      and requests only at the slice's folders. */
  predicate SliceLinked(s: Slice) {
    && (forall t :: 0 <= t < |s.environments| ==> s.environments[t].workspaceId == s.workspace.id)
    && FoldersNested(s.folders, s.workspace.id)
    && RequestsNested(s.requests, s.folders, s.workspace.id)
  }

  /** Referential integrity: every environment, folder and request belongs
      to a workspace of the bundle, and every non-null `folderId` is the id
      of a folder of the bundle. */
  predicate Linked(b: Bundle) {
    && (forall e :: e in b.environments ==> e.workspaceId in WorkspaceIds(b))
    && (forall f :: f in b.folders ==> f.workspaceId in WorkspaceIds(b) && (f.folderId == Null || f.folderId in FolderIds(b)))
    && (forall q :: q in b.requests ==> q.workspaceId in WorkspaceIds(b) && (q.folderId == Null || q.folderId in FolderIds(b)))
  }

  lemma ImportedSliceLinked(res: seq<Json>, o: Json, clock: Clock)
    requires ImportWorkspace(res, o, clock).Ok?
    ensures SliceLinked(ImportWorkspace(res, o, clock).value)
  {
    ImportedEnvironments(res, o, clock);
    ImportedNesting(res, o, clock);
  }

  /** Slices that are linked each on their own gather into a linked
      bundle. */
  lemma {:induction false} GatherLinked(slices: seq<Slice>)
    requires forall t :: 0 <= t < |slices| ==> SliceLinked(slices[t])
    ensures Linked(Gather(slices))
  {
    if |slices| > 0 {
      var init := slices[..|slices| - 1];
      var s := slices[|slices| - 1];
      assert forall t :: 0 <= t < |init| ==> init[t] == slices[t];
      GatherLinked(init);
      var a := Gather(init);
      var b := Gather(slices);
      assert b == Bundle(a.workspaces + [s.workspace], a.requests + s.requests, a.environments + s.environments, a.folders + s.folders);
      assert WorkspaceIds(a) <= WorkspaceIds(b);
      assert FolderIds(a) <= FolderIds(b);
      assert s.workspace.id in WorkspaceIds(b);
      SliceInBundle(s, b);
    }
  }

  lemma SliceInBundle(s: Slice, b: Bundle)
    requires SliceLinked(s) && s.workspace in b.workspaces
    requires forall f :: f in s.folders ==> f in b.folders
    ensures forall e :: e in s.environments ==> e.workspaceId in WorkspaceIds(b)
    ensures forall f :: f in s.folders ==> f.workspaceId in WorkspaceIds(b) && (f.folderId == Null || f.folderId in FolderIds(b))
    ensures forall q :: q in s.requests ==> q.workspaceId in WorkspaceIds(b) && (q.folderId == Null || q.folderId in FolderIds(b))
  {
    assert s.workspace.id in WorkspaceIds(b);
    forall f | f in s.folders
      ensures f.workspaceId in WorkspaceIds(b) && (f.folderId == Null || f.folderId in FolderIds(b))
    {
      var k :| 0 <= k < |s.folders| && s.folders[k] == f;
      if f.folderId != Null {
        var u :| 0 <= u < k && f.folderId == s.folders[u].id;
        assert s.folders[u] in b.folders;
      }
    }
    forall q | q in s.requests
      ensures q.workspaceId in WorkspaceIds(b) && (q.folderId == Null || q.folderId in FolderIds(b))
    {
      var k :| 0 <= k < |s.requests| && s.requests[k] == q;
      if q.folderId != Null {
        var u :| 0 <= u < |s.folders| && q.folderId == s.folders[u].id;
        assert s.folders[u] in b.folders;
      }
    }
  }

  /** The bundle of a successful import is linked. */
  lemma BundleLinked(res: seq<Json>, clock: Clock)
    requires ImportResources(res, clock).Ok?
    ensures Linked(ImportResources(res, clock).value)
  {
    var ws := Filter(res, IsWorkspace);
    var slices := MapResult(ws, o => ImportWorkspace(res, o, clock)).value;
    assert ImportResources(res, clock).value == Gather(slices);
    forall t | 0 <= t < |slices|
      ensures SliceLinked(slices[t])
    {
      assert ImportWorkspace(res, ws[t], clock) == Ok(slices[t]);
      ImportedSliceLinked(res, ws[t], clock);
    }
    GatherLinked(slices);
  }

  /** What the importer runs on: `JSON.parse` (None where it throws) and
      the clock. */
  datatype Host = Host(parse: string -> Option<Json>, clock: Clock)

  /** `undefined` (not an Insomnia export), an exception, or the bundle. */
  datatype Outcome = NotRecognized | Threw | Imported(bundle: Bundle)

  /** An Insomnia export: a plain object whose `requests` is an array. */
  predicate Recognized(t: Json) {
    IsPlainObject(t) && Get(t, "requests").Some? && Get(t, "requests").value.JArray?
  }

  /** `w` (`pluginHookImport`). */
  function PluginHookImport(contents: string, host: Host): (r: Outcome)
    ensures r.NotRecognized? <==> host.parse(contents).None? || !Recognized(host.parse(contents).value)
    ensures host.parse(contents).Some? && Recognized(host.parse(contents).value) ==>
              var resources := Get(host.parse(contents).value, "resources");
              && (!(resources.Some? && resources.value.JArray?) ==> r.Threw?)
              && (resources.Some? && resources.value.JArray? ==>
                    match ImportResources(resources.value.items, host.clock)
                    case Ok(b) => r == Imported(b)
                    case Throw => r.Threw?)
  {
    match host.parse(contents)
    case None => NotRecognized
    case Some(t) =>
      if !Recognized(t) then NotRecognized
      else
        match Get(t, "resources")
        case Some(JArray(res)) =>
          (match ImportResources(res, host.clock)
           case Ok(b) => Imported(b)
           case Throw => Threw)
        case _ => Threw
  }
}

=== FILE: json.dfy ===
/** JSON values as JSON.parse returns them (RFC 8259 value grammar), and the
    few JavaScript operations the importer applies to them: property reads,
    strict equality, truthiness, string coercion and Object.entries.

    A value that may also be `undefined` (a property that is not there) is a
    `Val`: `None` stands for `undefined`.
 */
module Json {
  import opened Wrappers

  /** A parsed JSON value. An object keeps its own properties in their
      enumeration order (the order Object.entries reports), which is the
      order JSON.parse left them in; its keys are therefore distinct, and
      lookups take the first member with a key. Numbers are integers. */
  datatype Json =
    | JNull
    | JBool(b: bool)
    | JNumber(n: int)
    | JString(s: string)
    | JArray(items: seq<Json>)
    | JObject(members: seq<(string, Json)>)

  /** A JavaScript value read from parsed JSON: `None` is `undefined`. */
  type Val = Option<Json>

  /** The value `null`. */
  const Null: Val := Some(JNull)

  function Str(s: string): Val {
    Some(JString(s))
  }

  /** The own property `key` of a member list, `undefined` when absent. */
  function Lookup(members: seq<(string, Json)>, key: string): Val {
    if |members| == 0 then None
    else if members[0].0 == key then Some(members[0].1)
    else Lookup(members[1..], key)
  }

  /** A lookup finds the first member with the key, and finds nothing
      exactly when no member has it. */
  lemma {:induction false} LookupFirst(members: seq<(string, Json)>, key: string)
    ensures Lookup(members, key).None? <==> forall i :: 0 <= i < |members| ==> members[i].0 != key
    ensures Lookup(members, key).Some? ==>
              exists i :: 0 <= i < |members| && members[i].0 == key && Lookup(members, key).value == members[i].1
                          && forall j :: 0 <= j < i ==> members[j].0 != key
  {
    if |members| > 0 && members[0].0 != key {
      LookupFirst(members[1..], key);
      assert forall i :: 1 <= i < |members| ==> members[i] == members[1..][i - 1];
      if Lookup(members, key).Some? {
        var i :| 0 <= i < |members[1..]| && members[1..][i].0 == key && Lookup(members, key).value == members[1..][i].1
                 && forall j :: 0 <= j < i ==> members[1..][j].0 != key;
        assert members[i + 1].0 == key && Lookup(members, key).value == members[i + 1].1;
        assert forall j :: 0 <= j < i + 1 ==> members[j].0 != key;
      }
    }
  }

  /** `v.key` for a value that is neither null nor undefined. None of the keys
      the importer reads is a property that strings, numbers, booleans or
      arrays have, so only objects yield something. */
  function Get(v: Json, key: string): Val {
    if v.JObject? then Lookup(v.members, key) else None
  }

  /** `v == null` (loose equality): undefined or null. */
  predicate IsNullish(v: Val) {
    v.None? || v == Some(JNull)
  }

  /** `v.key`, which throws a TypeError on undefined and null. */
  function Read(v: Val, key: string): (r: Result<Val>)
    ensures r.Throw? <==> IsNullish(v)
    ensures r.Ok? ==> r.value == Get(v.value, key)
  {
    if IsNullish(v) then Throw else Ok(Get(v.value, key))
  }

  /** `v == null ? void 0 : v.key`: a property read that never throws. */
  function ReadOptional(v: Val, key: string): (r: Val)
    ensures IsNullish(v) ==> r.None?
    ensures Read(v, key).Ok? ==> r == Read(v, key).value
  {
    if IsNullish(v) then None else Get(v.value, key)
  }

  /** Values that `===` compares by value. Every object and array that
      JSON.parse returns is a fresh allocation, so two of them read from
      different places are never identical. */
  predicate Primitive(v: Val) {
    v.None? || !(v.value.JArray? || v.value.JObject?)
  }

  /** `a === b` between two values read from one parsed document. */
  predicate StrictEq(a: Val, b: Val)
    ensures StrictEq(a, b) <==> a == b && Primitive(a)
  {
    match (a, b)
    case (None, None) => true
    case (Some(JNull), Some(JNull)) => true
    case (Some(JBool(x)), Some(JBool(y))) => x == y
    case (Some(JNumber(x)), Some(JNumber(y))) => x == y
    case (Some(JString(x)), Some(JString(y))) => x == y
    case _ => false
  }

  /** ToBoolean: undefined, null, false, 0 and "" are falsy. JSON numbers
      are never NaN. */
  predicate Truthy(v: Val) {
    match v
    case None => false
    case Some(JNull) => false
    case Some(JBool(b)) => b
    case Some(JNumber(n)) => n != 0
    case Some(JString(s)) => s != ""
    case Some(_) => true
  }

  function Digit(d: nat): (c: char)
    requires d < 10
    ensures '0' <= c <= '9'
  {
    ['0', '1', '2', '3', '4', '5', '6', '7', '8', '9'][d]
  }

  predicate IsDigits(s: string) {
    forall i :: 0 <= i < |s| ==> '0' <= s[i] <= '9'
  }

  /** The number a string of decimal digits denotes. */
  function DigitsValue(s: string): nat
    requires IsDigits(s)
  {
    if |s| == 0 then 0
    else DigitsValue(s[..|s| - 1]) * 10 + (s[|s| - 1] as int - '0' as int)
  }

  /** Decimal rendering of a natural number, as Number.prototype.toString
      renders an integer that a double holds exactly (up to 2^53); larger
      numbers are rendered with all their digits. */
  function NatToString(n: nat): (r: string)
    ensures |r| >= 1 && IsDigits(r)
    ensures r[0] == '0' ==> r == "0"
    ensures DigitsValue(r) == n
  {
    if n < 10 then [Digit(n)]
    else
      var prefix := NatToString(n / 10);
      var r := prefix + [Digit(n % 10)];
      assert r[..|r| - 1] == prefix;
      r
  }

  function IntToString(n: int): (r: string)
    ensures |r| >= 1
    ensures n < 0 <==> r[0] == '-'
    ensures n >= 0 ==> IsDigits(r) && DigitsValue(r) == n
    ensures n < 0 ==> |r| >= 2 && r[1] != '0' && IsDigits(r[1..]) && DigitsValue(r[1..]) == -n
  {
    if n < 0 then "-" + NatToString(-n) else NatToString(n)
  }

  predicate HasKey(members: seq<(string, Json)>, key: string) {
    exists i :: 0 <= i < |members| && members[i].0 == key
  }

  /** String coercion as a template literal performs it (`${v}`): ToPrimitive
      with hint string, then ToString. An object with an own property named
      `toString` has no callable toString or valueOf that yields a
      primitive, so coercing it throws a TypeError. */
  function ToStr(v: Json): (r: Result<string>)
    ensures v.JString? ==> r == Ok(v.s)
    ensures v.JObject? ==> (r.Throw? <==> HasKey(v.members, "toString"))
    ensures v.JObject? && r.Ok? ==> r.value == "[object Object]"
    decreases v, 1
  {
    match v
    case JNull => Ok("null")
    case JBool(b) => Ok(if b then "true" else "false")
    case JNumber(n) => Ok(IntToString(n))
    case JString(s) => Ok(s)
    case JArray(items) => JoinFrom(v, 0)
    case JObject(members) => if HasKey(members, "toString") then Throw else Ok("[object Object]")
  }

  /** Array.prototype.join(",") from index `i` on: null elements become the
      empty string, the others are coerced. */
  function JoinFrom(v: Json, i: nat): (r: Result<string>)
    requires v.JArray? && i <= |v.items|
    ensures i == |v.items| ==> r == Ok("")
    decreases v, 0, |v.items| - i
  {
    if i == |v.items| then Ok("")
    else
      var e :- if v.items[i] == JNull then Ok("") else ToStr(v.items[i]);
      if i + 1 == |v.items| then Ok(e)
      else
        var rest :- JoinFrom(v, i + 1);
        Ok(e + "," + rest)
  }

  /** Object.entries(v): throws on undefined and null; an object gives its
      members, an array and a string their index keys, other primitives
      nothing. */
  function Entries(v: Val): (r: Result<seq<(string, Json)>>)
    ensures r.Throw? <==> IsNullish(v)
    ensures v.Some? && v.value.JObject? ==> r == Ok(v.value.members)
    ensures v.Some? && v.value.JArray? ==>
              && r.Ok? && |r.value| == |v.value.items|
              && forall i :: 0 <= i < |r.value| ==> r.value[i] == (NatToString(i), v.value.items[i])
    ensures v.Some? && v.value.JString? ==>
              && r.Ok? && |r.value| == |v.value.s|
              && forall i :: 0 <= i < |r.value| ==> r.value[i] == (NatToString(i), JString([v.value.s[i]]))
    ensures v.Some? && (v.value.JBool? || v.value.JNumber?) ==> r == Ok([])
  {
    match v
    case None => Throw
    case Some(JNull) => Throw
    case Some(JObject(members)) => Ok(members)
    case Some(JArray(items)) =>
      Ok(seq(|items|, i requires 0 <= i < |items| => (NatToString(i), items[i])))
    case Some(JString(s)) =>
      Ok(seq(|s|, i requires 0 <= i < |s| => (NatToString(i), JString([s[i]]))))
    case Some(_) => Ok([])
  }

  /** One array element as join renders it: null as the empty string, any
      other value coerced. */
  function ElementStr(e: Json): Result<string> {
    if e == JNull then Ok("") else ToStr(e)
  }

  /** The parts separated by commas. */
  function Joined(parts: seq<string>): string {
    if |parts| == 0 then ""
    else if |parts| == 1 then parts[0]
    else parts[0] + "," + Joined(parts[1..])
  }

  /** A number coerces to its decimal digits, after a minus sign when it is
      negative. */
  lemma ToStrNumber(n: int)
    ensures ToStr(JNumber(n)).Ok?
    ensures var r := ToStr(JNumber(n)).value;
            && (n >= 0 ==> IsDigits(r) && DigitsValue(r) == n && (r[0] == '0' ==> r == "0"))
            && (n < 0 ==> |r| >= 2 && r[0] == '-' && r[1] != '0' && IsDigits(r[1..]) && DigitsValue(r[1..]) == -n)
  {
  }

  /** An array coerces to its elements' renderings joined by commas, and
      throws exactly when one of its elements does. */
  lemma ToStrArray(items: seq<Json>)
    ensures var parts := MapResult(items, ElementStr);
            && (ToStr(JArray(items)).Ok? <==> parts.Ok?)
            && (parts.Ok? ==> ToStr(JArray(items)).value == Joined(parts.value))
  {
    JoinFromParts(JArray(items), 0);
    assert items[0..] == items;
  }

  lemma {:induction false} JoinFromParts(v: Json, i: nat)
    requires v.JArray? && i <= |v.items|
    ensures var parts := MapResult(v.items[i..], ElementStr);
            && (JoinFrom(v, i).Ok? <==> parts.Ok?)
            && (parts.Ok? ==> JoinFrom(v, i).value == Joined(parts.value))
    decreases |v.items| - i
  {
    var xs := v.items[i..];
    if i < |v.items| {
      JoinFromParts(v, i + 1);
      assert v.items[i + 1..] == xs[1..];
      assert forall k :: 1 <= k < |xs| ==> xs[k] == xs[1..][k - 1];
      var parts := MapResult(xs, ElementStr);
      var rest := MapResult(xs[1..], ElementStr);
      assert ElementStr(xs[0]) == (if v.items[i] == JNull then Ok("") else ToStr(v.items[i]));
      if parts.Ok? {
        assert rest.Ok?;
        assert parts.value == [parts.value[0]] + rest.value;
      }
    }
  }
}

=== FILE: positions.dfy ===
/** Index views of the array operations the importer uses: `filter` as the
    ascending list of positions it keeps, `find` as the first such position. */
module Positions {
  import opened Wrappers

  /** The positions `i >= from` of `xs` whose element satisfies `keep`, in
      ascending order. */
  function Select<T>(xs: seq<T>, keep: T -> bool, from: nat): (r: seq<nat>)
    requires from <= |xs|
    ensures forall t :: 0 <= t < |r| ==> from <= r[t] < |xs| && keep(xs[r[t]])
    ensures forall t, u :: 0 <= t < u < |r| ==> r[t] < r[u]
    ensures forall i :: from <= i < |xs| && keep(xs[i]) ==> i in r
    decreases |xs| - from
  {
    if from == |xs| then []
    else if keep(xs[from]) then [from] + Select(xs, keep, from + 1)
    else Select(xs, keep, from + 1)
  }

  /** The elements of `xs` at positions `ps`, in the order of `ps`. */
  function Pick<T>(xs: seq<T>, ps: seq<nat>): (r: seq<T>)
    requires forall t :: 0 <= t < |ps| ==> ps[t] < |xs|
    ensures |r| == |ps|
    ensures forall t :: 0 <= t < |r| ==> r[t] == xs[ps[t]]
  {
    seq(|ps|, t requires 0 <= t < |ps| => xs[ps[t]])
  }

  /** Array.prototype.find, as a position: the first `i >= from` whose
      element satisfies `keep`. */
  function FindFrom<T>(xs: seq<T>, keep: T -> bool, from: nat): (r: Option<nat>)
    requires from <= |xs|
    ensures r.None? <==> forall i :: from <= i < |xs| ==> !keep(xs[i])
    ensures r.Some? ==> from <= r.value < |xs| && keep(xs[r.value])
                        && forall i :: from <= i < r.value ==> !keep(xs[i])
    decreases |xs| - from
  {
    if from == |xs| then None
    else if keep(xs[from]) then Some(from)
    else FindFrom(xs, keep, from + 1)
  }

  predicate Increasing(ps: seq<nat>) {
    forall t, u :: 0 <= t < u < |ps| ==> ps[t] < ps[u]
  }

  /** `r` lists, in their order in `xs`, the elements of `xs` at exactly the
      positions where `keep` holds: what Array.prototype.filter returns. */
  ghost predicate IsFiltered<T>(r: seq<T>, xs: seq<T>, keep: T -> bool) {
    exists ps: seq<nat> ::
      && Increasing(ps) && |ps| == |r|
      && (forall t :: 0 <= t < |ps| ==> ps[t] < |xs| && r[t] == xs[ps[t]])
      && (forall i :: 0 <= i < |xs| ==> (keep(xs[i]) <==> i in ps))
  }

  /** Array.prototype.filter. */
  function Filter<T>(xs: seq<T>, keep: T -> bool): (r: seq<T>)
    ensures IsFiltered(r, xs, keep)
  {
    var ps := Select(xs, keep, 0);
    var r := Pick(xs, ps);
    assert Increasing(ps);
    r
  }

  /** What a filtered sequence holds: kept elements of `xs`, and every kept
      element of `xs`. */
  lemma FilteredElements<T>(r: seq<T>, xs: seq<T>, keep: T -> bool)
    requires IsFiltered(r, xs, keep)
    ensures forall t :: 0 <= t < |r| ==> keep(r[t])
    ensures forall x :: x in r <==> x in xs && keep(x)
  {
    var ps: seq<nat> :| && Increasing(ps) && |ps| == |r|
                        && (forall t :: 0 <= t < |ps| ==> ps[t] < |xs| && r[t] == xs[ps[t]])
                        && (forall i :: 0 <= i < |xs| ==> (keep(xs[i]) <==> i in ps));
    forall x | x in xs && keep(x)
      ensures x in r
    {
      var i :| 0 <= i < |xs| && xs[i] == x;
      var t :| 0 <= t < |ps| && ps[t] == i;
      assert r[t] == x;
    }
  }

  /** Filtering keeps nothing when no element qualifies. */
  lemma FilterNone<T>(xs: seq<T>, keep: T -> bool)
    ensures (forall i :: 0 <= i < |xs| ==> !keep(xs[i])) ==> Filter(xs, keep) == []
  {
    var r := Filter(xs, keep);
    if forall i :: 0 <= i < |xs| ==> !keep(xs[i]) {
      FilteredElements(r, xs, keep);
      assert |r| > 0 ==> r[0] in r;
    }
  }

  /** The lists of `xss` one after the other, in order. */
  function Flatten<T(!new)>(xss: seq<seq<T>>): (r: seq<T>)
    ensures forall x :: x in r <==> exists t :: 0 <= t < |xss| && x in xss[t]
  {
    if |xss| == 0 then []
    else
      assert forall t :: 1 <= t < |xss| ==> xss[t] == xss[1..][t - 1];
      xss[0] + Flatten(xss[1..])
  }

  /** Appending one more list to flatten appends its elements at the end. */
  lemma {:induction false} FlattenSnoc<T(!new)>(xss: seq<seq<T>>, xs: seq<T>)
    ensures Flatten(xss + [xs]) == Flatten(xss) + xs
  {
    if |xss| > 0 {
      assert (xss + [xs])[1..] == xss[1..] + [xs];
      FlattenSnoc(xss[1..], xs);
      Associative(xss[0], Flatten(xss[1..]), xs);
    }
  }

  lemma Associative<T>(a: seq<T>, b: seq<T>, c: seq<T>)
    ensures a + (b + c) == (a + b) + c
  {
  }
}

=== FILE: resources.dfy ===
/** The source format's resources: elements of the export's `resources`
    array, told apart by their `_type` field, and linked to each other by
    `parentId`. */
module Resources {
  import opened Wrappers
  import opened Json

  /** `m`: Object.prototype.toString gives "[object Object]" exactly for
      parsed objects. */
  predicate IsPlainObject(v: Json) {
    v.JObject?
  }

  predicate HasType(r: Json, kind: string) {
    IsPlainObject(r) && Get(r, "_type") == Str(kind)
  }

  /** `S` */
  predicate IsWorkspace(r: Json) {
    HasType(r, "workspace")
  }

  /** `O` */
  predicate IsFolder(r: Json) {
    HasType(r, "request_group")
  }

  /** `g` */
  predicate IsRequest(r: Json) {
    HasType(r, "request")
  }

  /** `f` */
  predicate IsEnvironment(r: Json) {
    HasType(r, "environment")
  }

  function Id(r: Json): Val {
    Get(r, "_id")
  }

  function Parent(r: Json): Val {
    Get(r, "parentId")
  }

  /** An environment whose `parentId` is identical to `parent`. */
  predicate EnvironmentUnder(r: Json, parent: Val) {
    IsEnvironment(r) && StrictEq(Parent(r), parent)
  }

  /** The `folderId` of an imported folder or request: null for a direct
      child of the workspace, the source `parentId` verbatim otherwise. */
  function FolderLink(parent: Val, workspaceId: Val): (r: Val)
    ensures r == Null || r == parent
    ensures r != parent ==> StrictEq(parent, workspaceId)
    ensures parent != Null ==> (r == Null <==> StrictEq(parent, workspaceId))
  {
    if StrictEq(parent, workspaceId) then Null else parent
  }
}

=== FILE: scenarios.dfy ===
/** Concrete documents and what the importer makes of them. */
module Scenarios {
  import opened Wrappers
  import opened Json
  import opened Positions
  import opened Template
  import opened Resources
  import opened Entities
  import opened Walk
  import opened Importer

  /** A scoped placeholder loses its `_.` prefix; the whitespace before the
      closing braces stays inside the placeholder, because `[^}]+` takes it
      before `\s*` is tried. */
  lemma ScopedPlaceholder()
    ensures Rewrite("{{ _.u }}/x") == "${[u ]}/x"
  {
    var s := "{{ _.u }}/x";
    assert FirstClose(s, 7) == 7;
    assert FirstClose(s, 5) == 7;
    assert FirstClose(s, 3) == 7;
    assert SpaceRun(s, 3) == 3;
    assert MatchAt(s, 0) == Some(Match(1, true, 7));
    assert RewriteFrom(s, 9) == "/x";
  }

  lemma PlainPlaceholder()
    ensures Rewrite("{{ token }}") == "${[token ]}"
  {
    var s := "{{ token }}";
    assert FirstClose(s, 2) == 9;
    assert SpaceRun(s, 2) == 3;
    assert MatchAt(s, 0) == Some(Match(1, false, 9));
    assert RewriteFrom(s, 11) == "";
  }

  /** Values that are not strings pass through. */
  lemma NonStringsPassThrough()
    ensures RewriteVal(Some(JNumber(7))) == Some(JNumber(7))
    ensures RewriteVal(None) == None
  {
  }

  /** `{"a": "1", "b": 2}` gives two enabled variables, in member order,
      with the number converted to its decimal text. */
  lemma VariablesOfData()
    ensures Variables(Some(JObject([("a", JString("1")), ("b", JNumber(2))])))
            == Ok([Variable(true, "a", "1"), Variable(true, "b", "2")])
  {
    var data := Some(JObject([("a", JString("1")), ("b", JNumber(2))]));
    assert Digit(2) == '2';
    assert ToStr(JNumber(2)) == Ok("2");
    var vs := Variables(data).value;
    assert vs[0] == Variable(true, "a", "1");
    assert vs[1] == Variable(true, "b", "2");
    assert |vs| == 2;
    assert vs == [Variable(true, "a", "1"), Variable(true, "b", "2")];
  }

  function EmptyHeader(): Json {
    JObject([("name", JString("")), ("value", JString("")), ("disabled", JBool(false))])
  }

  function DisabledHeader(): Json {
    JObject([("name", JString("X")), ("value", JString("")), ("disabled", JBool(true))])
  }

  /** An empty header is dropped; a disabled named one is kept, disabled. */
  lemma HeaderFiltering(a: Json, b: Json)
    requires a == EmptyHeader() && b == DisabledHeader()
    ensures Headers(Some(JArray([a, b]))) == Ok([Header(false, Str("X"), Str(""))])
  {
    HeaderFields(a, b);
    HeaderPair(a, b);
  }

  lemma HeaderFields(a: Json, b: Json)
    requires a == EmptyHeader() && b == DisabledHeader()
    ensures a != JNull && b != JNull && !Kept(HeaderOf(a)) && Kept(HeaderOf(b))
    ensures HeaderOf(b) == Header(false, Str("X"), Str(""))
  {
  }

  /** Of two headers, only the second one kept. */
  lemma HeaderPair(a: Json, b: Json)
    requires a != JNull && b != JNull && !Kept(HeaderOf(a)) && Kept(HeaderOf(b))
    ensures Headers(Some(JArray([a, b]))) == Ok([HeaderOf(b)])
  {
    MappedHeaders(a, b);
    KeptHeaders(HeaderOf(a), HeaderOf(b));
  }

  lemma MappedHeaders(a: Json, b: Json)
    requires a != JNull && b != JNull
    ensures Headers(Some(JArray([a, b]))) == Ok(Filter([HeaderOf(a), HeaderOf(b)], Kept))
  {
    var items := [a, b];
    assert JNull !in items;
    var hs := seq(|items|, i requires 0 <= i < |items| => HeaderOf(items[i]));
    assert hs == [HeaderOf(a), HeaderOf(b)];
  }

  lemma KeptHeaders(a: Header, b: Header)
    requires !Kept(a) && Kept(b)
    ensures Filter([a, b], Kept) == [b]
  {
    var hs := [a, b];
    assert Select(hs, Kept, 2) == [];
    assert Select(hs, Kept, 1) == [1];
    assert Select(hs, Kept, 0) == [1];
  }

  /** A bearer token is rewritten. */
  lemma BearerAuthentication()
    ensures var bearer := JObject([("authentication", JObject([("type", JString("bearer")), ("token", JString("{{ t }}"))]))]);
            AuthenticationOf(bearer) == Ok((Some("bearer"), Bearer(Str("${[t ]}"))))
  {
    TokenPlaceholder();
  }

  lemma TokenPlaceholder()
    ensures Rewrite("{{ t }}") == "${[t ]}"
  {
    var s := "{{ t }}";
    assert FirstClose(s, 5) == 5;
    assert FirstClose(s, 3) == 5;
    assert SpaceRun(s, 3) == 3;
    assert MatchAt(s, 0) == Some(Match(1, false, 5));
    assert RewriteFrom(s, 7) == "";
  }

  /** Any other authentication type gives no type and no credentials. */
  lemma OtherAuthentication()
    ensures var none := JObject([("authentication", JObject([("type", JString("none"))]))]);
            AuthenticationOf(none) == Ok((None, NoAuthentication))
  {
    assert Str("none") != Str("bearer") && Str("none") != Str("basic");
  }

  function Resource(kind: string, id: string, parent: string): Json {
    JObject([("_type", JString(kind)), ("_id", JString(id)), ("parentId", JString(parent))])
  }

  /** Children of workspace W in array order [request A, folder G,
      request B], G holding request C. */
  function Tree(): seq<Json> {
    [Resource("request", "A", "W"), Resource("request_group", "G", "W"),
     Resource("request", "B", "W"), Resource("request", "C", "G")]
  }

  lemma ResourceFields(kind: string, id: string, parent: string)
    ensures var r := Resource(kind, id, parent);
            && r != JNull && Parent(r) == Str(parent) && Id(r) == Str(id)
            && (IsFolder(r) <==> kind == "request_group") && (IsRequest(r) <==> kind == "request")
  {
    var ms := [("_type", JString(kind)), ("_id", JString(id)), ("parentId", JString(parent))];
    assert ms[1..] == [("_id", JString(id)), ("parentId", JString(parent))];
    assert ms[1..][1..] == [("parentId", JString(parent))];
    assert Lookup(ms[1..][1..], "parentId") == Str(parent);
    assert Lookup(ms[1..], "parentId") == Str(parent);
    assert Lookup(ms[1..], "_id") == Str(id);
  }

  /** Resource `r` is a request (or, when `folder`, a folder) with the
      given parent. */
  predicate Node(r: Json, folder: bool, parent: string) {
    r != JNull && Parent(r) == Str(parent) && IsFolder(r) == folder && IsRequest(r) == !folder
  }

  /** The shape of `Tree()` the walk looks at. */
  predicate TreeShaped(res: seq<Json>) {
    && |res| == 4
    && Node(res[0], false, "W") && Node(res[1], true, "W") && Id(res[1]) == Str("G")
    && Node(res[2], false, "W") && Node(res[3], false, "G")
  }

  lemma TreeFields()
    ensures TreeShaped(Tree())
  {
    TreeNode(0, "request", "A", "W");
    TreeNode(1, "request_group", "G", "W");
    TreeNode(2, "request", "B", "W");
    TreeNode(3, "request", "C", "G");
  }

  lemma TreeNode(k: nat, kind: string, id: string, parent: string)
    requires k < 4 && Tree()[k] == Resource(kind, id, parent)
    requires kind == "request" || kind == "request_group"
    ensures Node(Tree()[k], kind == "request_group", parent) && Id(Tree()[k]) == Str(id)
  {
    ResourceFields(kind, id, parent);
  }

  /** One step of the walk past a resource that is not a child of `key`. */
  lemma SkipStep(res: seq<Json>, key: Val, entered: set<Val>, i: nat, count: nat)
    requires i < |res| && res[i] != JNull && !StrictEq(Parent(res[i]), key)
    ensures WalkFrom(res, key, entered, i, count) == WalkFrom(res, key, entered, i + 1, count)
  {
  }

  /** One step of the walk past a child request of `key`. */
  lemma RequestStep(res: seq<Json>, key: Val, entered: set<Val>, i: nat, count: nat, rest: Plan)
    requires i < |res| && res[i] != JNull && StrictEq(Parent(res[i]), key) && !IsFolder(res[i]) && IsRequest(res[i])
    requires WalkFrom(res, key, entered, i + 1, count + 1) == Ok(rest)
    ensures WalkFrom(res, key, entered, i, count) == Ok(Join(Plan([], [Placed(i, count)]), rest))
  {
  }

  /** A gets 0 and B gets 1 (the folder takes no slot); C gets 0 from the
      counter of its own level; C is pushed before B because the walk
      enters G before it reaches B. */
  lemma SortPriorities()
    ensures WalkFrom(Tree(), Str("W"), {Str("W")}, 0, 0)
            == Ok(Plan([1], [Placed(0, 0), Placed(3, 0), Placed(2, 1)]))
  {
    TreeFields();
    ShapedWalk(Tree());
  }

  lemma ShapedWalk(res: seq<Json>)
    requires TreeShaped(res)
    ensures WalkFrom(res, Str("W"), {Str("W")}, 0, 0) == Ok(Plan([1], [Placed(0, 0), Placed(3, 0), Placed(2, 1)]))
  {
    var key := Str("W");
    var inner := Join(Plan([], [Placed(3, 0)]), Plan([], []));
    var rest := Join(Plan([], [Placed(2, 1)]), Plan([], []));
    InsideFolder(res, Str("G"), {key, Str("G")});
    AfterFolder(res, key, {key});
    EnterFolder(res, key, inner, rest);
    var atFolder := Join(Plan([1], []), Join(inner, rest));
    FirstRequest(res, key, {key}, atFolder);
    PlanOfTree(atFolder);
  }

  lemma PlanOfTree(atFolder: Plan)
    requires atFolder == Join(Plan([1], []), Join(Join(Plan([], [Placed(3, 0)]), Plan([], [])), Join(Plan([], [Placed(2, 1)]), Plan([], []))))
    ensures Join(Plan([], [Placed(0, 0)]), atFolder) == Plan([1], [Placed(0, 0), Placed(3, 0), Placed(2, 1)])
  {
  }

  lemma FirstRequest(res: seq<Json>, key: Val, entered: set<Val>, atFolder: Plan)
    requires |res| == 4 && Node(res[0], false, "W") && key == Str("W")
    requires WalkFrom(res, key, entered, 1, 1) == Ok(atFolder)
    ensures WalkFrom(res, key, entered, 0, 0) == Ok(Join(Plan([], [Placed(0, 0)]), atFolder))
  {
    RequestStep(res, key, entered, 0, 0, atFolder);
  }

  lemma EnterFolder(res: seq<Json>, key: Val, inner: Plan, rest: Plan)
    requires |res| == 4 && Node(res[1], true, "W") && Id(res[1]) == Str("G") && key == Str("W")
    requires WalkFrom(res, Str("G"), {key, Str("G")}, 0, 0) == Ok(inner)
    requires WalkFrom(res, key, {key}, 2, 1) == Ok(rest)
    ensures WalkFrom(res, key, {key}, 1, 1) == Ok(Join(Plan([1], []), Join(inner, rest)))
  {
    assert StrictEq(Parent(res[1]), key);
    assert Id(res[1]) == Str("G") && Str("G") !in {key};
    assert {key} + {Str("G")} == {key, Str("G")};
  }

  lemma InsideFolder(res: seq<Json>, key: Val, entered: set<Val>)
    requires TreeShaped(res) && key == Str("G")
    ensures WalkFrom(res, key, entered, 0, 0) == Ok(Join(Plan([], [Placed(3, 0)]), Plan([], [])))
  {
    assert WalkFrom(res, key, entered, 4, 1) == Ok(Plan([], []));
    RequestStep(res, key, entered, 3, 0, Plan([], []));
    InsideFolderSkips(res, key, entered);
  }

  lemma InsideFolderSkips(res: seq<Json>, key: Val, entered: set<Val>)
    requires TreeShaped(res) && key == Str("G")
    ensures WalkFrom(res, key, entered, 0, 0) == WalkFrom(res, key, entered, 3, 0)
  {
    assert !StrictEq(Str("W"), key);
    SkipStep(res, key, entered, 2, 0);
    SkipStep(res, key, entered, 1, 0);
    SkipStep(res, key, entered, 0, 0);
  }

  lemma AfterFolder(res: seq<Json>, key: Val, entered: set<Val>)
    requires |res| == 4 && Node(res[2], false, "W") && Node(res[3], false, "G") && key == Str("W")
    ensures WalkFrom(res, key, entered, 2, 1) == Ok(Join(Plan([], [Placed(2, 1)]), Plan([], [])))
  {
    LastSkip(res, key, entered);
    RequestStep(res, key, entered, 2, 1, Plan([], []));
  }

  lemma LastSkip(res: seq<Json>, key: Val, entered: set<Val>)
    requires |res| == 4 && Node(res[3], false, "G") && key == Str("W")
    ensures WalkFrom(res, key, entered, 3, 2) == Ok(Plan([], []))
  {
    assert WalkFrom(res, key, entered, 4, 2) == Ok(Plan([], []));
    assert !StrictEq(Str("G"), key);
    SkipStep(res, key, entered, 3, 2);
  }

  /** A folder that names itself as its own parent makes the walk
      re-enter its key. */
  lemma SelfParentedFolder()
    ensures var res := [Resource("request_group", "W", "W")];
            WalkFrom(res, Str("W"), {Str("W")}, 0, 0).Throw?
  {
  }

  /** A workspace with no environment at all. The import as written fails
      on it; with the guards honoured it imports as a bare workspace. */
  lemma WorkspaceWithoutEnvironment(w: Json, clock: Clock)
    requires w == Resource("workspace", "W", "")
    ensures ImportWorkspace([w], w, clock).Throw?
    ensures ImportWorkspaceGuarded([w], w, clock) == Ok(Slice(Workspace(Str("W"), clock.now, clock.now, None, []), [], [], []))
  {
    ResourceFields("workspace", "W", "");
    var res := [w];
    assert Get(w, "_type") == Str("workspace");
    assert !IsEnvironment(w);
    assert BaseEnvironment(res, Id(w)).None?;
    assert WalkFrom(res, Str("W"), {Str("W")}, 1, 0) == Ok(Plan([], []));
    assert WorkspacePlan(res, w) == Ok(Plan([], []));
    BareFields(w);
    GuardedBareWorkspace(res, w, clock);
  }

  lemma BareFields(w: Json)
    requires w == Resource("workspace", "W", "")
    ensures Get(w, "created") == None && Get(w, "updated") == None && Get(w, "name") == None
  {
    var ms := w.members;
    assert ms[1..][1..][1..] == [];
  }

  /** A resource with the three fields every resource has, followed by
      `extra`. */
  function Tagged(kind: string, id: string, parent: string, extra: seq<(string, Json)>): Json {
    JObject([("_type", JString(kind)), ("_id", JString(id)), ("parentId", JString(parent))] + extra)
  }

  /** The kind, id and parent of resource `r`. */
  predicate Shape(r: Json, kind: string, id: string, parent: string) {
    && r != JNull && Parent(r) == Str(parent) && Id(r) == Str(id)
    && (IsWorkspace(r) <==> kind == "workspace") && (IsEnvironment(r) <==> kind == "environment")
    && (IsFolder(r) <==> kind == "request_group") && (IsRequest(r) <==> kind == "request")
  }

  /** Every other field of resource `r` is read from `extra`. */
  ghost predicate Extra(r: Json, extra: seq<(string, Json)>) {
    forall k :: k != "_type" && k != "_id" && k != "parentId" ==> Get(r, k) == Lookup(extra, k)
  }

  lemma TaggedShape(kind: string, id: string, parent: string, extra: seq<(string, Json)>)
    ensures Shape(Tagged(kind, id, parent, extra), kind, id, parent)
    ensures Extra(Tagged(kind, id, parent, extra), extra)
  {
    var ms := Tagged(kind, id, parent, extra).members;
    assert ms[1..] == [("_id", JString(id)), ("parentId", JString(parent))] + extra;
    assert ms[1..][1..] == [("parentId", JString(parent))] + extra;
    assert ms[1..][1..][1..] == extra;
    assert Lookup(ms[1..][1..], "parentId") == Str(parent);
    assert Lookup(ms[1..], "parentId") == Str(parent);
    assert Lookup(ms[1..], "_id") == Str(id);
    forall k | k != "_type" && k != "_id" && k != "parentId"
      ensures Lookup(ms, k) == Lookup(extra, k)
    {
      assert Lookup(ms[1..][1..], k) == Lookup(extra, k);
      assert Lookup(ms[1..], k) == Lookup(extra, k);
    }
  }

  function EmptyData(): seq<(string, Json)> {
    [("data", JObject([]))]
  }

  function NoAuth(): seq<(string, Json)> {
    [("authentication", JObject([("type", JString("none"))]))]
  }

  /** A full export: workspace W, its base environment E, the environment S
      under E, the folder G in W and the request R in G. */
  function Export(): seq<Json> {
    [Tagged("workspace", "W", "", []), Tagged("environment", "E", "W", EmptyData()),
     Tagged("environment", "S", "E", EmptyData()), Tagged("request_group", "G", "W", []),
     Tagged("request", "R", "G", NoAuth())]
  }

  /** The kinds and links of `Export()`, all the walk and the lookups see. */
  predicate ExportKinds(res: seq<Json>) {
    && |res| == 5
    && Shape(res[0], "workspace", "W", "")
    && Shape(res[1], "environment", "E", "W")
    && Shape(res[2], "environment", "S", "E")
    && Shape(res[3], "request_group", "G", "W")
    && Shape(res[4], "request", "R", "G")
  }

  ghost predicate ExportShaped(res: seq<Json>) {
    && ExportKinds(res)
    && Extra(res[0], []) && Extra(res[1], EmptyData()) && Extra(res[2], EmptyData())
    && Extra(res[3], []) && Extra(res[4], NoAuth())
  }

  lemma ExportFields()
    ensures ExportShaped(Export())
  {
    TaggedShape("workspace", "W", "", []);
    TaggedShape("environment", "E", "W", EmptyData());
    TaggedShape("environment", "S", "E", EmptyData());
    TaggedShape("request_group", "G", "W", []);
    TaggedShape("request", "R", "G", NoAuth());
  }

  /** Of the elements of `xs`, only the one at `k` is kept. */
  lemma FilterOne<T>(xs: seq<T>, keep: T -> bool, k: nat)
    requires k < |xs| && keep(xs[k])
    requires forall i :: 0 <= i < |xs| && i != k ==> !keep(xs[i])
    ensures Filter(xs, keep) == [xs[k]]
  {
    SelectOne(xs, keep, k, 0);
  }

  lemma {:induction false} SelectOne<T>(xs: seq<T>, keep: T -> bool, k: nat, from: nat)
    requires from <= |xs| && k < |xs| && keep(xs[k])
    requires forall i :: 0 <= i < |xs| && i != k ==> !keep(xs[i])
    ensures Select(xs, keep, from) == if from <= k then [k] else []
    decreases |xs| - from
  {
    if from < |xs| {
      SelectOne(xs, keep, k, from + 1);
    }
  }

  /** One step of the walk past a child of `key` that is neither a folder
      nor a request. */
  lemma OtherChildStep(res: seq<Json>, key: Val, entered: set<Val>, i: nat, count: nat)
    requires i < |res| && res[i] != JNull && StrictEq(Parent(res[i]), key) && !IsFolder(res[i]) && !IsRequest(res[i])
    ensures WalkFrom(res, key, entered, i, count) == WalkFrom(res, key, entered, i + 1, count)
  {
  }

  /** One step of the walk into a child folder of `key` not yet entered. */
  lemma FolderStep(res: seq<Json>, key: Val, entered: set<Val>, i: nat, count: nat, inner: Plan, rest: Plan)
    requires i < |res| && res[i] != JNull && StrictEq(Parent(res[i]), key) && IsFolder(res[i])
    requires Primitive(Id(res[i])) && Id(res[i]) !in entered
    requires WalkFrom(res, Id(res[i]), entered + {Id(res[i])}, 0, 0) == Ok(inner)
    requires WalkFrom(res, key, entered, i + 1, count) == Ok(rest)
    ensures WalkFrom(res, key, entered, i, count) == Ok(Join(Plan([i], []), Join(inner, rest)))
  {
  }

  /** Inside G the walk finds only R, the first request of its level. */
  lemma ExportInner(res: seq<Json>)
    requires ExportKinds(res)
    ensures WalkFrom(res, Str("G"), {Str("W"), Str("G")}, 0, 0) == Ok(Plan([], [Placed(4, 0)]))
  {
    var key, entered := Str("G"), {Str("W"), Str("G")};
    assert WalkFrom(res, key, entered, 5, 1) == Ok(Plan([], []));
    RequestStep(res, key, entered, 4, 0, Plan([], []));
    assert Join(Plan([], [Placed(4, 0)]), Plan([], [])) == Plan([], [Placed(4, 0)]);
    SkipStep(res, key, entered, 3, 0);
    SkipStep(res, key, entered, 2, 0);
    SkipStep(res, key, entered, 1, 0);
    SkipStep(res, key, entered, 0, 0);
  }

  /** Below W the walk passes the environments, pushes G and then R. */
  lemma ExportWalk(res: seq<Json>)
    requires ExportKinds(res)
    ensures WorkspacePlan(res, res[0]) == Ok(Plan([3], [Placed(4, 0)]))
  {
    var key, entered := Str("W"), {Str("W")};
    ExportInner(res);
    assert entered + {Str("G")} == {Str("W"), Str("G")};
    assert WalkFrom(res, key, entered, 5, 0) == Ok(Plan([], []));
    SkipStep(res, key, entered, 4, 0);
    FolderStep(res, key, entered, 3, 0, Plan([], [Placed(4, 0)]), Plan([], []));
    assert Join(Plan([3], []), Join(Plan([], [Placed(4, 0)]), Plan([], []))) == Plan([3], [Placed(4, 0)]);
    SkipStep(res, key, entered, 2, 0);
    OtherChildStep(res, key, entered, 1, 0);
    SkipStep(res, key, entered, 0, 0);
  }

  /** E is W's base environment. */
  lemma ExportBase(res: seq<Json>)
    requires ExportKinds(res)
    ensures BaseEnvironment(res, Str("W")) == Some(1)
  {
    assert !EnvironmentUnder(res[0], Str("W")) && EnvironmentUnder(res[1], Str("W"));
  }

  /** S is the only environment under E. */
  lemma ExportSubs(res: seq<Json>)
    requires ExportKinds(res)
    ensures SubEnvironments(res, res[1]) == [res[2]]
  {
    var keep := r => EnvironmentUnder(r, Str("E"));
    assert !keep(res[0]) && !keep(res[1]) && keep(res[2]) && !keep(res[3]) && !keep(res[4]);
    FilterOne(res, keep, 2);
  }

  /** W is the only workspace. */
  lemma ExportWorkspaces(res: seq<Json>)
    requires ExportKinds(res)
    ensures Filter(res, IsWorkspace) == [res[0]]
  {
    assert !IsWorkspace(res[1]) && !IsWorkspace(res[2]) && !IsWorkspace(res[3]) && !IsWorkspace(res[4]);
    FilterOne(res, IsWorkspace, 0);
  }

  function ExportWorkspace(now: string): Workspace {
    Workspace(Str("W"), now, now, None, [])
  }

  function ExportEnvironment(now: string): Environment {
    Environment(Str("S"), now, now, Str("W"), None, [])
  }

  /** G is a direct child of W, so its `folderId` is null. */
  function ExportFolder(now: string): Folder {
    Folder(Str("G"), now, now, Null, Str("W"), None)
  }

  /** R sits in G; it has no name, url, body, method or headers, and the
      authentication type `none`. */
  function ExportRequest(now: string): Request {
    Request(Str("R"), now, now, Str("W"), Str("G"), 0, None, None, Null, None, NoAuthentication, None, None, [])
  }

  /** Without dates, the entities are stamped with the current time. */
  lemma BuiltWorkspace(o: Json, clock: Clock)
    requires Shape(o, "workspace", "W", "") && Extra(o, [])
    ensures NewWorkspace(o, [], clock) == Ok(ExportWorkspace(clock.now))
  {
    assert Get(o, "created") == None && Get(o, "updated") == None && Get(o, "name") == None;
  }

  /** An empty `data` object gives no variables. */
  lemma EmptyVariables(e: Json)
    requires Extra(e, EmptyData())
    ensures Variables(Get(e, "data")) == Ok([])
  {
    assert Get(e, "data") == Some(JObject([]));
    assert Entries(Some(JObject([]))) == Ok([]);
  }

  lemma BuiltEnvironment(e: Json, clock: Clock)
    requires Shape(e, "environment", "S", "E") && Extra(e, EmptyData())
    ensures NewEnvironment(e, Str("W"), clock) == Ok(ExportEnvironment(clock.now))
  {
    EmptyVariables(e);
    assert Get(e, "created") == None && Get(e, "updated") == None && Get(e, "name") == None;
  }

  lemma BuiltFolder(f: Json, clock: Clock)
    requires Shape(f, "request_group", "G", "W") && Extra(f, [])
    ensures NewFolder(f, Str("W"), clock) == Ok(ExportFolder(clock.now))
  {
    assert Get(f, "created") == None && Get(f, "updated") == None && Get(f, "name") == None;
    assert FolderLink(Str("W"), Str("W")) == Null;
  }

  lemma BuiltRequest(e: Json, clock: Clock)
    requires Shape(e, "request", "R", "G") && Extra(e, NoAuth())
    ensures NewRequest(e, Str("W"), 0, clock) == Ok(ExportRequest(clock.now))
  {
    RequestFields(e);
    assert FolderLink(Str("G"), Str("W")) == Str("G");
  }

  /** What the request of the export holds besides its tags. */
  lemma RequestFields(e: Json)
    requires Shape(e, "request", "R", "G") && Extra(e, NoAuth())
    ensures Get(e, "created") == None && Get(e, "updated") == None && Get(e, "name") == None
    ensures Get(e, "url") == None && Get(e, "method") == None && Get(e, "headers") == None
    ensures AuthenticationOf(e) == Ok((None, NoAuthentication))
    ensures BodyOf(e) == (None, Null)
  {
    assert Get(e, "authentication") == Some(JObject([("type", JString("none"))]));
    assert Get(e, "body") == None;
  }

  lemma ExportEnvironments(res: seq<Json>, clock: Clock)
    requires ExportShaped(res)
    ensures Environments(res, res[1], Str("W"), clock) == Ok([ExportEnvironment(clock.now)])
  {
    ExportSubs(res);
    BuiltEnvironment(res[2], clock);
    MapResultOk([res[2]], r => NewEnvironment(r, Str("W"), clock), [ExportEnvironment(clock.now)]);
  }

  lemma ExportFolders(res: seq<Json>, clock: Clock)
    requires ExportShaped(res)
    ensures Valid(res, Plan([3], [Placed(4, 0)]))
    ensures Folders(res, Plan([3], [Placed(4, 0)]), Str("W"), clock) == Ok([ExportFolder(clock.now)])
  {
    assert Pick(res, [3]) == [res[3]];
    BuiltFolder(res[3], clock);
    MapResultOk([res[3]], r => NewFolder(r, Str("W"), clock), [ExportFolder(clock.now)]);
  }

  lemma ExportRequests(res: seq<Json>, clock: Clock)
    requires ExportShaped(res)
    ensures Valid(res, Plan([3], [Placed(4, 0)]))
    ensures Requests(res, Plan([3], [Placed(4, 0)]), Str("W"), clock) == Ok([ExportRequest(clock.now)])
  {
    BuiltRequest(res[4], clock);
    MapResultOk([Placed(4, 0)], (p: Placed) requires p.at < |res| => NewRequest(res[p.at], Str("W"), p.priority, clock),
                [ExportRequest(clock.now)]);
  }

  /** The loop body for W imports W, S, G and R. */
  lemma ExportSlice(res: seq<Json>, clock: Clock)
    requires ExportShaped(res)
    ensures ImportWorkspace(res, res[0], clock)
            == Ok(Slice(ExportWorkspace(clock.now), [ExportEnvironment(clock.now)],
                        [ExportFolder(clock.now)], [ExportRequest(clock.now)]))
  {
    ExportBase(res);
    EmptyVariables(res[1]);
    BuiltWorkspace(res[0], clock);
    ExportEnvironments(res, clock);
    ExportWalk(res);
    ExportFolders(res, clock);
    ExportRequests(res, clock);
    ImportWorkspaceFromParts(res, res[0], clock, 1, [], ExportWorkspace(clock.now), [ExportEnvironment(clock.now)],
                             Plan([3], [Placed(4, 0)]), [ExportFolder(clock.now)], [ExportRequest(clock.now)]);
  }

  function ExportBundle(now: string): Bundle {
    Bundle([ExportWorkspace(now)], [ExportRequest(now)], [ExportEnvironment(now)], [ExportFolder(now)])
  }

  /** The loop over `resources` gives one workspace with its environment,
      folder and request. */
  lemma ExportImported(res: seq<Json>, clock: Clock)
    requires ExportShaped(res)
    ensures ImportResources(res, clock) == Ok(ExportBundle(clock.now))
  {
    var now := clock.now;
    var slice := Slice(ExportWorkspace(now), [ExportEnvironment(now)], [ExportFolder(now)], [ExportRequest(now)]);
    ExportWorkspaces(res);
    ExportSlice(res, clock);
    ImportResourcesFromSlices(res, clock, [slice]);
    GatherOne(slice);
  }

  lemma GatherOne(s: Slice)
    ensures Gather([s]) == Bundle([s.workspace], s.requests, s.environments, s.folders)
  {
    assert [s][..0] == [];
  }

  /** The export document: an empty `requests` array, which marks it as an
      Insomnia export, and the resources. */
  function ExportDocument(): Json {
    JObject([("requests", JArray([])), ("resources", JArray(Export()))])
  }

  /** `pluginHookImport` on a full export imports the workspace, its
      environment, folder and request. */
  lemma FullExport(contents: string, host: Host)
    requires host.parse(contents) == Some(ExportDocument())
    ensures PluginHookImport(contents, host) == Imported(ExportBundle(host.clock.now))
  {
    ExportFields();
    ExportImported(Export(), host.clock);
    DocumentImported(contents, host, Export(), ExportBundle(host.clock.now));
  }

  /** A document with a `requests` array and a `resources` array imports
      as the loop over the resources does. */
  lemma DocumentImported(contents: string, host: Host, res: seq<Json>, b: Bundle)
    requires host.parse(contents) == Some(JObject([("requests", JArray([])), ("resources", JArray(res))]))
    requires ImportResources(res, host.clock) == Ok(b)
    ensures PluginHookImport(contents, host) == Imported(b)
  {
    DocumentFields(res);
  }

  lemma DocumentFields(res: seq<Json>)
    ensures var doc := JObject([("requests", JArray([])), ("resources", JArray(res))]);
            Recognized(doc) && Get(doc, "resources") == Some(JArray(res))
  {
    var members := [("requests", JArray([])), ("resources", JArray(res))];
    assert members[1..] == [("resources", JArray(res))];
    assert "requests"[2] != "resources"[2];
    assert Lookup(members[1..], "resources") == Some(JArray(res));
  }
}

=== FILE: template.dfy ===
/** The template rewrite `d`: every match of the global regular expression
    `{{\s*(_\.)?([^}]+)\s*}}` is replaced by `${[` group 2 `]}`; values that
    are not strings pass through unchanged.

    Matching is modelled twice: `Decomposes` says what it means for the
    pattern to match at a position (every way the regular expression can
    split the text), and `MatchAt` computes the match the backtracking
    matcher reports, which is the first decomposition in the matcher's
    preference order: the longest leading whitespace, then the `_.` scope
    marker taken, then the longest group. A character is a Unicode scalar
    value. The pattern has no `u` flag, so the matcher reads UTF-16 code
    units; every character the pattern names is in the Basic Multilingual
    Plane, and `[^}]` accepts either half of a surrogate pair, so the
    matches and the rewrite agree with the code-unit reading.
 */
module Template {
  import opened Wrappers
  import opened Json
  import opened Positions

  /** `\s`: the WhiteSpace and LineTerminator characters of ECMAScript. */
  predicate IsSpace(c: char) {
    || c == '\t' || c == '\n' || c == '\U{B}' || c == '\U{C}' || c == '\r' || c == ' '
    || c == '\U{A0}' || c == '\U{1680}' || ('\U{2000}' <= c <= '\U{200A}')
    || c == '\U{2028}' || c == '\U{2029}' || c == '\U{202F}' || c == '\U{205F}'
    || c == '\U{3000}' || c == '\U{FEFF}'
  }

  predicate AllSpace(s: string, i: nat, j: nat)
    requires i <= j <= |s|
  {
    forall k :: i <= k < j ==> IsSpace(s[k])
  }

  /** No `}` in s[i..j]: what `[^}]` accepts. */
  predicate NoClose(s: string, i: nat, j: nat)
    requires i <= j <= |s|
  {
    forall k :: i <= k < j ==> s[k] != '}'
  }

  /** One way for the pattern to match the text starting at `p`: `w`
      whitespace characters after `{{`, the `_.` marker or not, group 2 up
      to `e1`, whitespace up to `e2`, then `}}`. */
  predicate Decomposes(s: string, p: nat, w: nat, scoped: bool, e1: nat, e2: nat) {
    var g := p + 2 + w + (if scoped then 2 else 0);
    && g < e1 <= e2 && e2 + 2 <= |s|
    && s[p] == '{' && s[p + 1] == '{'
    && AllSpace(s, p + 2, p + 2 + w)
    && (scoped ==> s[p + 2 + w] == '_' && s[p + 3 + w] == '.')
    && NoClose(s, g, e1)
    && AllSpace(s, e1, e2)
    && s[e2] == '}' && s[e2 + 1] == '}'
  }

  /** A reported match: how much leading whitespace it skipped, whether it
      dropped a `_.` marker, and where its closing `}}` starts. */
  datatype Match = Match(lead: nat, scoped: bool, close: nat)

  /** Where group 2 of a match at `p` starts; it ends at `m.close`. */
  function GroupStart(p: nat, m: Match): nat {
    p + 2 + m.lead + (if m.scoped then 2 else 0)
  }

  /** Position of the first `}` at or after `i`, or |s| when there is none. */
  function FirstClose(s: string, i: nat): (r: nat)
    requires i <= |s|
    ensures i <= r <= |s| && NoClose(s, i, r)
    ensures r < |s| ==> s[r] == '}'
    decreases |s| - i
  {
    if i == |s| || s[i] == '}' then i else FirstClose(s, i + 1)
  }

  /** End of the longest run of whitespace starting at `i`. */
  function SpaceRun(s: string, i: nat): (r: nat)
    requires i <= |s|
    ensures i <= r <= |s| && AllSpace(s, i, r)
    ensures r < |s| ==> !IsSpace(s[r])
    decreases |s| - i
  {
    if i == |s| || !IsSpace(s[i]) then i else SpaceRun(s, i + 1)
  }

  /** Every decomposition closes at the first `}` after `{{`, and skips no
      more whitespace than there is. */
  lemma DecompositionShape(s: string, p: nat, w: nat, scoped: bool, e1: nat, e2: nat)
    requires p <= |s| && Decomposes(s, p, w, scoped, e1, e2)
    ensures e2 == FirstClose(s, p + 2)
    ensures p + 2 + w <= SpaceRun(s, p + 2)
  {
    var g := p + 2 + w + (if scoped then 2 else 0);
    assert NoClose(s, p + 2, e2) by {
      forall k | p + 2 <= k < e2
        ensures s[k] != '}'
      {
        if k < p + 2 + w {
          assert IsSpace(s[k]);
        } else if k < g {
        } else if k < e1 {
        } else {
          assert IsSpace(s[k]);
        }
      }
    }
  }

  /** The match the regular expression reports at `p`, if any. */
  function MatchAt(s: string, p: nat): (r: Option<Match>)
    requires p <= |s|
    ensures r.Some? ==> p + 2 <= GroupStart(p, r.value) < r.value.close && r.value.close + 2 <= |s|
  {
    if p + 2 <= |s| && s[p] == '{' && s[p + 1] == '{' then
      var j := FirstClose(s, p + 2);
      if p + 2 < j && j + 1 < |s| && s[j + 1] == '}' then
        var q := SpaceRun(s, p + 2);
        assert q <= j;
        if q + 2 < j && s[q] == '_' && s[q + 1] == '.' then Some(Match(q - (p + 2), true, j))
        else if q < j then Some(Match(q - (p + 2), false, j))
        else Some(Match(q - (p + 2) - 1, false, j))
      else None
    else None
  }

  /** `MatchAt` agrees with the meaning of the pattern: it reports nothing
      exactly when no decomposition exists, and otherwise reports the
      decomposition the backtracking matcher tries first. Group 2 therefore
      always runs up to the first `}`, keeping any trailing whitespace. */
  lemma MatchAtIsPreferred(s: string, p: nat)
    requires p <= |s|
    ensures MatchAt(s, p).None? <==> forall w: nat, scoped: bool, e1: nat, e2: nat :: !Decomposes(s, p, w, scoped, e1, e2)
    ensures MatchAt(s, p).Some? ==>
              var m := MatchAt(s, p).value;
              && Decomposes(s, p, m.lead, m.scoped, m.close, m.close)
              && forall w: nat, scoped: bool, e1: nat, e2: nat :: Decomposes(s, p, w, scoped, e1, e2) ==>
                   && e2 == m.close && e1 <= m.close
                   && w <= m.lead
                   && (w == m.lead && scoped ==> m.scoped)
  {
    if p + 2 <= |s| && s[p] == '{' && s[p + 1] == '{' {
      var j := FirstClose(s, p + 2);
      if p + 2 < j && j + 1 < |s| && s[j + 1] == '}' {
        var q := SpaceRun(s, p + 2);
        assert q <= j;
        MatchChosen(s, p, MatchAt(s, p).value);
      } else {
        NoMatch(s, p);
      }
    } else {
      NoMatch(s, p);
    }
  }

  /** Without `{{` at `p` followed by a `}` that another `}` follows, the
      pattern cannot match there. */
  lemma NoMatch(s: string, p: nat)
    requires p <= |s|
    requires !(p + 2 <= |s| && s[p] == '{' && s[p + 1] == '{'
               && var j := FirstClose(s, p + 2); p + 2 < j && j + 1 < |s| && s[j + 1] == '}')
    ensures forall w: nat, scoped: bool, e1: nat, e2: nat :: !Decomposes(s, p, w, scoped, e1, e2)
  {
    forall w: nat, scoped: bool, e1: nat, e2: nat | Decomposes(s, p, w, scoped, e1, e2)
      ensures false
    {
      DecompositionShape(s, p, w, scoped, e1, e2);
    }
  }

  /** The match `MatchAt` builds is a decomposition, and every other
      decomposition comes after it in the matcher's preference order. */
  lemma MatchChosen(s: string, p: nat, m: Match)
    requires p + 2 <= |s| && s[p] == '{' && s[p + 1] == '{'
    requires m.close == FirstClose(s, p + 2)
    requires p + 2 < m.close && m.close + 1 < |s| && s[m.close + 1] == '}'
    requires var q := SpaceRun(s, p + 2);
             q <= m.close &&
             m == (if q + 2 < m.close && s[q] == '_' && s[q + 1] == '.' then Match(q - (p + 2), true, m.close)
                   else if q < m.close then Match(q - (p + 2), false, m.close)
                   else Match(q - (p + 2) - 1, false, m.close))
    ensures Decomposes(s, p, m.lead, m.scoped, m.close, m.close)
    ensures forall w: nat, scoped: bool, e1: nat, e2: nat :: Decomposes(s, p, w, scoped, e1, e2) ==>
              && e2 == m.close && e1 <= m.close
              && w <= m.lead
              && (w == m.lead && scoped ==> m.scoped)
  {
    var j := m.close;
    var q := SpaceRun(s, p + 2);
    assert AllSpace(s, p + 2, p + 2 + m.lead);
    assert NoClose(s, GroupStart(p, m), j);
    forall w: nat, scoped: bool, e1: nat, e2: nat | Decomposes(s, p, w, scoped, e1, e2)
      ensures e2 == j && e1 <= j && w <= m.lead && (w == m.lead && scoped ==> m.scoped)
    {
      DecompositionShape(s, p, w, scoped, e1, e2);
      if q == j {
        assert w < q - (p + 2);
      }
    }
  }

  /** The text `${[$2]}` that replaces a match at `p`. */
  function Replacement(s: string, p: nat, m: Match): string
    requires GroupStart(p, m) <= m.close <= |s|
  {
    "${[" + s[GroupStart(p, m)..m.close] + "]}"
  }

  /** `replaceAll` with the global pattern, from position `i` on: the
      matcher scans left to right and resumes after each match. */
  function RewriteFrom(s: string, i: nat): string
    requires i <= |s|
    decreases |s| - i
  {
    if i == |s| then ""
    else
      match MatchAt(s, i)
      case Some(m) => Replacement(s, i, m) + RewriteFrom(s, m.close + 2)
      case None => [s[i]] + RewriteFrom(s, i + 1)
  }

  function Rewrite(s: string): string {
    RewriteFrom(s, 0)
  }

  /** Whether the pattern matches somewhere in s[i..]. */
  predicate HasTemplateFrom(s: string, i: nat)
    requires i <= |s|
  {
    exists p :: i <= p < |s| && MatchAt(s, p).Some?
  }

  /** The rewrite changes a string exactly when the pattern matches in it. */
  lemma {:induction false} RewriteUnchangedIff(s: string, i: nat)
    requires i <= |s|
    ensures RewriteFrom(s, i) == s[i..] <==> !HasTemplateFrom(s, i)
    decreases |s| - i, 1
  {
    if i < |s| {
      if MatchAt(s, i).Some? {
        MatchChanges(s, i);
      } else {
        UnchangedStep(s, i);
      }
    }
  }

  /** A match at `i` puts `$` where the text had `{`. */
  lemma MatchChanges(s: string, i: nat)
    requires i < |s| && MatchAt(s, i).Some?
    ensures RewriteFrom(s, i) != s[i..] && HasTemplateFrom(s, i)
  {
    ReplaceStep(s, i);
    var r := RewriteFrom(s, i);
    assert r[0] == '$';
    assert s[i..][0] == '{';
  }

  lemma {:induction false} UnchangedStep(s: string, i: nat)
    requires i < |s| && MatchAt(s, i).None?
    ensures RewriteFrom(s, i) == s[i..] <==> !HasTemplateFrom(s, i)
    decreases |s| - i, 0
  {
    RewriteUnchangedIff(s, i + 1);
    CopyStep(s, i);
    Uncons(s, i);
    NoMatchHere(s, i);
    CopyIff(s[i], RewriteFrom(s, i), RewriteFrom(s, i + 1), s[i..], s[i + 1..],
            HasTemplateFrom(s, i), HasTemplateFrom(s, i + 1));
  }

  lemma Uncons<T>(s: seq<T>, i: nat)
    requires i < |s|
    ensures s[i..] == [s[i]] + s[i + 1..]
  {
  }

  /** A copied first element keeps "unchanged" and "no match" in step. */
  lemma CopyIff<T>(c: T, whole: seq<T>, rest: seq<T>, orig: seq<T>, tail: seq<T>, found: bool, foundLater: bool)
    requires whole == [c] + rest && orig == [c] + tail
    requires rest == tail <==> !foundLater
    requires found <==> foundLater
    ensures whole == orig <==> !found
  {
    PrefixCancel(c, rest, tail);
  }

  lemma PrefixCancel<T>(c: T, a: seq<T>, b: seq<T>)
    ensures [c] + a == [c] + b <==> a == b
  {
    if [c] + a == [c] + b {
      assert a == ([c] + a)[1..];
    }
  }

  /** Where nothing matches at `i`, the matches from `i` on are those from
      `i + 1` on. */
  lemma NoMatchHere(s: string, i: nat)
    requires i < |s| && MatchAt(s, i).None?
    ensures HasTemplateFrom(s, i) <==> HasTemplateFrom(s, i + 1)
  {
    if HasTemplateFrom(s, i) {
      var p :| i <= p < |s| && MatchAt(s, p).Some?;
      assert i + 1 <= p;
    }
  }

  /** Text before the leftmost match is copied verbatim; the match is
      replaced and the scan resumes after its closing braces. */
  lemma {:induction false} RewriteLeftmost(s: string, i: nat, p: nat)
    requires i <= p < |s|
    requires forall k :: i <= k < p ==> MatchAt(s, k).None?
    requires MatchAt(s, p).Some?
    ensures RewriteFrom(s, i)
            == s[i..p] + (Replacement(s, p, MatchAt(s, p).value) + RewriteFrom(s, MatchAt(s, p).value.close + 2))
    decreases p - i, 1
  {
    if i < p {
      CopiedPrefix(s, i, p);
    } else {
      ReplaceStep(s, p);
      assert s[i..p] == [];
    }
  }

  lemma {:induction false} CopiedPrefix(s: string, i: nat, p: nat)
    requires i < p < |s|
    requires forall k :: i <= k < p ==> MatchAt(s, k).None?
    requires MatchAt(s, p).Some?
    ensures RewriteFrom(s, i)
            == s[i..p] + (Replacement(s, p, MatchAt(s, p).value) + RewriteFrom(s, MatchAt(s, p).value.close + 2))
    decreases p - i, 0
  {
    var tail := Replacement(s, p, MatchAt(s, p).value) + RewriteFrom(s, MatchAt(s, p).value.close + 2);
    CopyStep(s, i);
    RewriteLeftmost(s, i + 1, p);
    Prepend(s, i, p, RewriteFrom(s, i), RewriteFrom(s, i + 1), tail);
  }

  /** Copying one more character in front of a copied slice. */
  lemma Prepend<T>(x: seq<T>, i: nat, p: nat, longer: seq<T>, shorter: seq<T>, tail: seq<T>)
    requires i < p <= |x|
    requires longer == [x[i]] + shorter && shorter == x[i + 1..p] + tail
    ensures longer == x[i..p] + tail
  {
    assert x[i..p] == [x[i]] + x[i + 1..p];
    Associative([x[i]], x[i + 1..p], tail);
  }

  /** Where the pattern matches, the match is replaced. */
  lemma ReplaceStep(s: string, p: nat)
    requires p < |s| && MatchAt(s, p).Some?
    ensures RewriteFrom(s, p) == Replacement(s, p, MatchAt(s, p).value) + RewriteFrom(s, MatchAt(s, p).value.close + 2)
  {
  }

  /** Where nothing matches, one character is copied. */
  lemma CopyStep(s: string, i: nat)
    requires i < |s| && MatchAt(s, i).None?
    ensures RewriteFrom(s, i) == [s[i]] + RewriteFrom(s, i + 1)
  {
  }

  /** A string without `{{` is left unchanged. */
  lemma NoBracesUnchanged(s: string)
    requires forall k :: 0 <= k < |s| - 1 ==> !(s[k] == '{' && s[k + 1] == '{')
    ensures Rewrite(s) == s
  {
    RewriteUnchangedIff(s, 0);
  }

  /** `d`: strings are rewritten, every other value passes through. */
  function RewriteVal(v: Val): (r: Val)
    ensures r.Some? && r.value.JString? <==> v.Some? && v.value.JString?
    ensures !(v.Some? && v.value.JString?) ==> r == v
  {
    if v.Some? && v.value.JString? then Str(Rewrite(v.value.s)) else v
  }
}

=== FILE: walk.dfy ===
/** The recursive walk `u` of the importer: starting from a workspace id, it
    scans the whole resource array for resources whose `parentId` is
    identical to the current key, pushes folders (and walks into them) and
    requests (numbering them with a counter that starts at 0 for every
    call), and skips everything else.

    The walk is modelled as a pure function that returns the plan of what
    the closure pushes: the positions of the folders, and the positions and
    sort priorities of the requests. The entities are built from the plan
    afterwards. */
module Walk {
  import opened Wrappers
  import opened Json
  import opened Resources

  /** A request to push: its position in the resource array and the value
      the per-level counter had. */
  datatype Placed = Placed(at: nat, priority: nat)

  /** What a call of `u` pushes, in order: folder positions onto
      `folders`, placed requests onto `requests`. */
  datatype Plan = Plan(folders: seq<nat>, requests: seq<Placed>)

  function Join(a: Plan, b: Plan): Plan {
    Plan(a.folders + b.folders, a.requests + b.requests)
  }

  /** Every id in the document: the arguments `u` can be called with below
      the workspace. */
  function Keys(res: seq<Json>): set<Val> {
    set i | 0 <= i < |res| :: Id(res[i])
  }

  /** `u(key)` from position `i` of the array, with the counter at `count`.
      `entered` holds the keys of the calls of `u` on the stack: entering a
      key again would repeat the same call forever, which in JavaScript
      ends with a RangeError once the stack overflows. */
  function WalkFrom(res: seq<Json>, key: Val, entered: set<Val>, i: nat, count: nat): Result<Plan>
    requires i <= |res|
    decreases Keys(res) - entered, |res| - i
  {
    if i == |res| then Ok(Plan([], []))
    else if res[i] == JNull then Throw
    else if !StrictEq(Parent(res[i]), key) then WalkFrom(res, key, entered, i + 1, count)
    else if IsFolder(res[i]) then
      var child := Id(res[i]);
      assert child in Keys(res);
      var inner :-
        if !Primitive(child) then Ok(Plan([], []))
        else if child in entered then Throw
        else WalkFrom(res, child, entered + {child}, 0, 0);
      var rest :- WalkFrom(res, key, entered, i + 1, count);
      Ok(Join(Plan([i], []), Join(inner, rest)))
    else if IsRequest(res[i]) then
      var rest :- WalkFrom(res, key, entered, i + 1, count + 1);
      Ok(Join(Plan([], [Placed(i, count)]), rest))
    else WalkFrom(res, key, entered, i + 1, count)
  }

  /** The requests among res[..n] whose `parentId` is identical to `key`:
      the siblings a request at position n comes after. */
  function Siblings(res: seq<Json>, key: Val, n: nat): nat
    requires n <= |res|
  {
    if n == 0 then 0
    else Siblings(res, key, n - 1) + (if IsRequest(res[n - 1]) && StrictEq(Parent(res[n - 1]), key) then 1 else 0)
  }

  /** Every folder position holds a folder, every placed request a request. */
  predicate Valid(res: seq<Json>, plan: Plan) {
    && (forall t :: 0 <= t < |plan.folders| ==> plan.folders[t] < |res| && IsFolder(res[plan.folders[t]]))
    && (forall t :: 0 <= t < |plan.requests| ==> plan.requests[t].at < |res| && IsRequest(res[plan.requests[t].at]))
  }

  /** A request's sort priority is the number of requests before it, in
      array order, with an identical `parentId`. */
  predicate Numbered(res: seq<Json>, plan: Plan)
    requires Valid(res, plan)
  {
    forall t :: 0 <= t < |plan.requests| ==>
      var p := plan.requests[t];
      p.priority == Siblings(res, Parent(res[p.at]), p.at)
  }

  /** The folder at `folders[t]` is a child of `key` or of a folder listed
      before it. */
  predicate FolderRooted(res: seq<Json>, folders: seq<nat>, t: nat, key: Val)
    requires t < |folders| && forall u :: 0 <= u < |folders| ==> folders[u] < |res|
  {
    var parent := Parent(res[folders[t]]);
    StrictEq(parent, key) || exists u :: 0 <= u < t && StrictEq(parent, Id(res[folders[u]]))
  }

  /** The request at position `at` is a child of `key` or of a listed folder. */
  predicate RequestRooted(res: seq<Json>, folders: seq<nat>, at: nat, key: Val)
    requires at < |res| && forall u :: 0 <= u < |folders| ==> folders[u] < |res|
  {
    var parent := Parent(res[at]);
    StrictEq(parent, key) || exists u :: 0 <= u < |folders| && StrictEq(parent, Id(res[folders[u]]))
  }

  /** Every pushed folder is a child of `key` or of a folder pushed before
      it; every pushed request is a child of `key` or of a pushed folder. */
  predicate Rooted(res: seq<Json>, plan: Plan, key: Val)
    requires Valid(res, plan)
  {
    && (forall t :: 0 <= t < |plan.folders| ==> FolderRooted(res, plan.folders, t, key))
    && (forall t :: 0 <= t < |plan.requests| ==> RequestRooted(res, plan.folders, plan.requests[t].at, key))
  }

  function RequestPositions(plan: Plan): set<nat> {
    set p | p in plan.requests :: p.at
  }

  /** Every folder and request from position `i` on whose `parentId` is
      identical to `key` is pushed. */
  predicate Covers(res: seq<Json>, plan: Plan, key: Val, i: nat) {
    forall j :: i <= j < |res| && StrictEq(Parent(res[j]), key) ==>
      && (IsFolder(res[j]) ==> j in plan.folders)
      && (IsRequest(res[j]) ==> j in RequestPositions(plan))
  }

  /** The children of every pushed folder are pushed too. */
  predicate Closed(res: seq<Json>, plan: Plan)
    requires Valid(res, plan)
  {
    forall f :: f in plan.folders ==> Covers(res, plan, Id(res[f]), 0)
  }

  lemma JoinValid(res: seq<Json>, a: Plan, b: Plan)
    requires Valid(res, a) && Valid(res, b)
    ensures Valid(res, Join(a, b))
  {
    var j := Join(a, b);
    assert forall t :: |a.folders| <= t < |j.folders| ==> j.folders[t] == b.folders[t - |a.folders|];
    assert forall t :: |a.requests| <= t < |j.requests| ==> j.requests[t] == b.requests[t - |a.requests|];
  }

  /** The walk pushes only folders and requests. */
  lemma {:induction false} WalkValid(res: seq<Json>, key: Val, entered: set<Val>, i: nat, count: nat)
    requires i <= |res| && WalkFrom(res, key, entered, i, count).Ok?
    ensures Valid(res, WalkFrom(res, key, entered, i, count).value)
    decreases Keys(res) - entered, |res| - i
  {
    if i == |res| || res[i] == JNull {
    } else if !StrictEq(Parent(res[i]), key) {
      WalkValid(res, key, entered, i + 1, count);
    } else if IsFolder(res[i]) {
      var child := Id(res[i]);
      assert child in Keys(res);
      var inner := Plan([], []);
      if Primitive(child) && child !in entered {
        WalkValid(res, child, entered + {child}, 0, 0);
        inner := WalkFrom(res, child, entered + {child}, 0, 0).value;
      }
      WalkValid(res, key, entered, i + 1, count);
      var rest := WalkFrom(res, key, entered, i + 1, count).value;
      JoinValid(res, inner, rest);
      JoinValid(res, Plan([i], []), Join(inner, rest));
    } else if IsRequest(res[i]) {
      WalkValid(res, key, entered, i + 1, count + 1);
      JoinValid(res, Plan([], [Placed(i, count)]), WalkFrom(res, key, entered, i + 1, count + 1).value);
    } else {
      WalkValid(res, key, entered, i + 1, count);
    }
  }

  lemma JoinNumbered(res: seq<Json>, a: Plan, b: Plan)
    requires Valid(res, a) && Valid(res, b) && Numbered(res, a) && Numbered(res, b)
    ensures Valid(res, Join(a, b)) && Numbered(res, Join(a, b))
  {
    JoinValid(res, a, b);
    var j := Join(a, b);
    assert forall t :: |a.requests| <= t < |j.requests| ==> j.requests[t] == b.requests[t - |a.requests|];
  }

  /** Sort priorities: within one parent's children, taken in array order,
      requests are numbered 0, 1, 2, ...; folders and other kinds take no
      number, and the children of every folder are numbered from 0 again. */
  lemma {:induction false} WalkNumbered(res: seq<Json>, key: Val, entered: set<Val>, i: nat, count: nat)
    requires i <= |res| && WalkFrom(res, key, entered, i, count).Ok?
    requires count == Siblings(res, key, i)
    ensures Valid(res, WalkFrom(res, key, entered, i, count).value)
    ensures Numbered(res, WalkFrom(res, key, entered, i, count).value)
    decreases Keys(res) - entered, |res| - i, 1
  {
    WalkValid(res, key, entered, i, count);
    if i == |res| || res[i] == JNull {
    } else if !StrictEq(Parent(res[i]), key) || !(IsFolder(res[i]) || IsRequest(res[i])) {
      WalkNumbered(res, key, entered, i + 1, count);
    } else if IsFolder(res[i]) {
      NumberedFolder(res, key, entered, i, count);
    } else {
      NumberedRequest(res, key, entered, i, count);
    }
  }

  lemma {:induction false} NumberedFolder(res: seq<Json>, key: Val, entered: set<Val>, i: nat, count: nat)
    requires i < |res| && res[i] != JNull && StrictEq(Parent(res[i]), key) && IsFolder(res[i])
    requires WalkFrom(res, key, entered, i, count).Ok?
    requires count == Siblings(res, key, i)
    ensures Valid(res, WalkFrom(res, key, entered, i, count).value)
    ensures Numbered(res, WalkFrom(res, key, entered, i, count).value)
    decreases Keys(res) - entered, |res| - i, 0
  {
    var child := Id(res[i]);
    assert child in Keys(res);
    var inner := Plan([], []);
    if Primitive(child) && child !in entered {
      WalkNumbered(res, child, entered + {child}, 0, 0);
      inner := WalkFrom(res, child, entered + {child}, 0, 0).value;
    }
    WalkNumbered(res, key, entered, i + 1, count);
    var rest := WalkFrom(res, key, entered, i + 1, count).value;
    assert WalkFrom(res, key, entered, i, count).value == Join(Plan([i], []), Join(inner, rest));
    JoinNumbered(res, inner, rest);
    JoinNumbered(res, Plan([i], []), Join(inner, rest));
  }

  lemma {:induction false} NumberedRequest(res: seq<Json>, key: Val, entered: set<Val>, i: nat, count: nat)
    requires i < |res| && res[i] != JNull && StrictEq(Parent(res[i]), key) && !IsFolder(res[i]) && IsRequest(res[i])
    requires WalkFrom(res, key, entered, i, count).Ok?
    requires count == Siblings(res, key, i)
    ensures Valid(res, WalkFrom(res, key, entered, i, count).value)
    ensures Numbered(res, WalkFrom(res, key, entered, i, count).value)
    decreases Keys(res) - entered, |res| - i, 0
  {
    assert Parent(res[i]) == key;
    WalkNumbered(res, key, entered, i + 1, count + 1);
    var rest := WalkFrom(res, key, entered, i + 1, count + 1).value;
    assert WalkFrom(res, key, entered, i, count).value == Join(Plan([], [Placed(i, count)]), rest);
    JoinNumbered(res, Plan([], [Placed(i, count)]), rest);
  }

  /** A folder followed by its own subtree and then its later siblings. */
  lemma RootedFolder(res: seq<Json>, key: Val, i: nat, inner: Plan, rest: Plan)
    requires i < |res| && IsFolder(res[i]) && StrictEq(Parent(res[i]), key)
    requires Valid(res, inner) && Rooted(res, inner, Id(res[i]))
    requires Valid(res, rest) && Rooted(res, rest, key)
    ensures Valid(res, Join(Plan([i], []), Join(inner, rest)))
    ensures Rooted(res, Join(Plan([i], []), Join(inner, rest)), key)
  {
    JoinValid(res, inner, rest);
    JoinValid(res, Plan([i], []), Join(inner, rest));
    var plan := Join(Plan([i], []), Join(inner, rest));
    var fs := plan.folders;
    var nf := |inner.folders|;
    assert fs == [i] + inner.folders + rest.folders;
    forall t | 0 <= t < |fs|
      ensures FolderRooted(res, fs, t, key)
    {
      if t == 0 {
      } else if t < 1 + nf {
        FolderRootedShift(res, inner.folders, fs, 1, t - 1, Id(res[i]), key);
      } else {
        FolderRootedShift(res, rest.folders, fs, 1 + nf, t - 1 - nf, key, key);
      }
    }
    forall t | 0 <= t < |plan.requests|
      ensures RequestRooted(res, fs, plan.requests[t].at, key)
    {
      if t < |inner.requests| {
        assert plan.requests[t] == inner.requests[t];
        RequestRootedShift(res, inner.folders, fs, 1, inner.requests[t].at, Id(res[i]), key);
      } else {
        assert plan.requests[t] == rest.requests[t - |inner.requests|];
        RequestRootedShift(res, rest.folders, fs, 1 + nf, plan.requests[t].at, key, key);
      }
    }
  }

  /** Rootedness survives placing a folder list at offset `d` of a longer
      one whose position 0 holds a folder with id `sub`, a child of `key`. */
  lemma FolderRootedShift(res: seq<Json>, part: seq<nat>, whole: seq<nat>, d: nat, t: nat, sub: Val, key: Val)
    requires forall u :: 0 <= u < |whole| ==> whole[u] < |res|
    requires t < |part| && d + |part| <= |whole|
    requires forall u :: 0 <= u < |part| ==> whole[d + u] == part[u]
    requires FolderRooted(res, part, t, sub)
    requires sub == key || (d >= 1 && sub == Id(res[whole[0]]))
    ensures FolderRooted(res, whole, d + t, key)
  {
    var parent := Parent(res[part[t]]);
    if StrictEq(parent, sub) {
      if sub != key {
        assert StrictEq(parent, Id(res[whole[0]]));
      }
    } else {
      var u :| 0 <= u < t && StrictEq(parent, Id(res[part[u]]));
      assert whole[d + u] == part[u];
    }
  }

  lemma RequestRootedShift(res: seq<Json>, part: seq<nat>, whole: seq<nat>, d: nat, at: nat, sub: Val, key: Val)
    requires at < |res| && forall u :: 0 <= u < |whole| ==> whole[u] < |res|
    requires d + |part| <= |whole|
    requires forall u :: 0 <= u < |part| ==> whole[d + u] == part[u]
    requires RequestRooted(res, part, at, sub)
    requires sub == key || (d >= 1 && sub == Id(res[whole[0]]))
    ensures RequestRooted(res, whole, at, key)
  {
    var parent := Parent(res[at]);
    if StrictEq(parent, sub) {
      if sub != key {
        assert StrictEq(parent, Id(res[whole[0]]));
      }
    } else {
      var u :| 0 <= u < |part| && StrictEq(parent, Id(res[part[u]]));
      assert whole[d + u] == part[u];
    }
  }

  /** A request followed by its later siblings. */
  lemma RootedRequest(res: seq<Json>, key: Val, p: Placed, rest: Plan)
    requires p.at < |res| && IsRequest(res[p.at]) && StrictEq(Parent(res[p.at]), key)
    requires Valid(res, rest) && Rooted(res, rest, key)
    ensures Valid(res, Join(Plan([], [p]), rest))
    ensures Rooted(res, Join(Plan([], [p]), rest), key)
  {
    JoinValid(res, Plan([], [p]), rest);
    var plan := Join(Plan([], [p]), rest);
    assert plan.folders == rest.folders;
    assert RequestRooted(res, plan.folders, p.at, key);
    assert forall t :: 1 <= t < |plan.requests| ==> plan.requests[t] == rest.requests[t - 1];
  }

  /** Nesting: every folder the walk pushes is a child of `key` or of a
      folder pushed before it, and every request is a child of `key` or of
      a pushed folder; nothing unreachable from `key` is pushed. */
  lemma {:induction false} WalkRooted(res: seq<Json>, key: Val, entered: set<Val>, i: nat, count: nat)
    requires i <= |res| && WalkFrom(res, key, entered, i, count).Ok?
    ensures Valid(res, WalkFrom(res, key, entered, i, count).value)
    ensures Rooted(res, WalkFrom(res, key, entered, i, count).value, key)
    decreases Keys(res) - entered, |res| - i, 1
  {
    WalkValid(res, key, entered, i, count);
    if i == |res| || res[i] == JNull {
    } else if !StrictEq(Parent(res[i]), key) || !(IsFolder(res[i]) || IsRequest(res[i])) {
      WalkRooted(res, key, entered, i + 1, count);
    } else if IsFolder(res[i]) {
      RootedAtFolder(res, key, entered, i, count);
    } else {
      WalkRooted(res, key, entered, i + 1, count + 1);
      var rest := WalkFrom(res, key, entered, i + 1, count + 1).value;
      assert WalkFrom(res, key, entered, i, count).value == Join(Plan([], [Placed(i, count)]), rest);
      RootedRequest(res, key, Placed(i, count), rest);
    }
  }

  lemma {:induction false} RootedAtFolder(res: seq<Json>, key: Val, entered: set<Val>, i: nat, count: nat)
    requires i < |res| && res[i] != JNull && StrictEq(Parent(res[i]), key) && IsFolder(res[i])
    requires WalkFrom(res, key, entered, i, count).Ok?
    ensures Valid(res, WalkFrom(res, key, entered, i, count).value)
    ensures Rooted(res, WalkFrom(res, key, entered, i, count).value, key)
    decreases Keys(res) - entered, |res| - i, 0
  {
    var child := Id(res[i]);
    assert child in Keys(res);
    var inner := Plan([], []);
    if Primitive(child) && child !in entered {
      WalkRooted(res, child, entered + {child}, 0, 0);
      inner := WalkFrom(res, child, entered + {child}, 0, 0).value;
    }
    WalkRooted(res, key, entered, i + 1, count);
    var rest := WalkFrom(res, key, entered, i + 1, count).value;
    assert WalkFrom(res, key, entered, i, count).value == Join(Plan([i], []), Join(inner, rest));
    RootedFolder(res, key, i, inner, rest);
  }

  /** Everything `a` pushes, `b` pushes too. */
  predicate Within(a: Plan, b: Plan) {
    && (forall f :: f in a.folders ==> f in b.folders)
    && RequestPositions(a) <= RequestPositions(b)
  }

  lemma CoversWithin(res: seq<Json>, a: Plan, b: Plan, key: Val, i: nat)
    requires Covers(res, a, key, i) && Within(a, b)
    ensures Covers(res, b, key, i)
  {
  }

  lemma JoinWithin(a: Plan, b: Plan)
    ensures Within(a, Join(a, b)) && Within(b, Join(a, b))
  {
    var j := Join(a, b);
    assert forall p :: p in a.requests ==> p in j.requests;
    assert forall p :: p in b.requests ==> p in j.requests;
  }

  lemma WithinTrans(a: Plan, b: Plan, c: Plan)
    requires Within(a, b) && Within(b, c)
    ensures Within(a, c)
  {
  }

  /** Reachability: the walk from `key` pushes every folder and request
      below `key`: the children of `key` from position `i` on, and the
      children of every folder it pushes. */
  lemma {:induction false} WalkComplete(res: seq<Json>, key: Val, entered: set<Val>, i: nat, count: nat)
    requires i <= |res| && WalkFrom(res, key, entered, i, count).Ok?
    ensures Valid(res, WalkFrom(res, key, entered, i, count).value)
    ensures Covers(res, WalkFrom(res, key, entered, i, count).value, key, i)
    ensures Closed(res, WalkFrom(res, key, entered, i, count).value)
    decreases Keys(res) - entered, |res| - i, 1
  {
    WalkValid(res, key, entered, i, count);
    if i == |res| || res[i] == JNull {
    } else if !StrictEq(Parent(res[i]), key) || !(IsFolder(res[i]) || IsRequest(res[i])) {
      WalkComplete(res, key, entered, i + 1, count);
    } else if IsFolder(res[i]) {
      CompleteAtFolder(res, key, entered, i, count);
    } else {
      WalkComplete(res, key, entered, i + 1, count + 1);
      var rest := WalkFrom(res, key, entered, i + 1, count + 1).value;
      var plan := Join(Plan([], [Placed(i, count)]), rest);
      assert WalkFrom(res, key, entered, i, count).value == plan;
      JoinWithin(Plan([], [Placed(i, count)]), rest);
      assert i in RequestPositions(plan);
      CoversWithin(res, rest, plan, key, i + 1);
      forall f | f in plan.folders
        ensures Covers(res, plan, Id(res[f]), 0)
      {
        CoversWithin(res, rest, plan, Id(res[f]), 0);
      }
    }
  }

  lemma {:induction false} CompleteAtFolder(res: seq<Json>, key: Val, entered: set<Val>, i: nat, count: nat)
    requires i < |res| && res[i] != JNull && StrictEq(Parent(res[i]), key) && IsFolder(res[i])
    requires WalkFrom(res, key, entered, i, count).Ok?
    ensures Valid(res, WalkFrom(res, key, entered, i, count).value)
    ensures Covers(res, WalkFrom(res, key, entered, i, count).value, key, i)
    ensures Closed(res, WalkFrom(res, key, entered, i, count).value)
    decreases Keys(res) - entered, |res| - i, 0
  {
    WalkValid(res, key, entered, i, count);
    var child := Id(res[i]);
    assert child in Keys(res);
    var inner := Plan([], []);
    if Primitive(child) && child !in entered {
      WalkComplete(res, child, entered + {child}, 0, 0);
      inner := WalkFrom(res, child, entered + {child}, 0, 0).value;
    }
    WalkComplete(res, key, entered, i + 1, count);
    var rest := WalkFrom(res, key, entered, i + 1, count).value;
    var below := Join(inner, rest);
    var plan := Join(Plan([i], []), below);
    assert WalkFrom(res, key, entered, i, count).value == plan;
    JoinWithin(inner, rest);
    JoinWithin(Plan([i], []), below);
    WithinTrans(inner, below, plan);
    WithinTrans(rest, below, plan);
    assert i in plan.folders;
    CoversWithin(res, rest, plan, key, i + 1);
    forall f | f in plan.folders
      ensures Covers(res, plan, Id(res[f]), 0)
    {
      if f in inner.folders {
        CoversWithin(res, inner, plan, Id(res[f]), 0);
      } else if f in rest.folders {
        CoversWithin(res, rest, plan, Id(res[f]), 0);
      } else {
        assert f == i;
        if Primitive(child) {
          CoversWithin(res, inner, plan, child, 0);
        }
      }
    }
  }

  /** Re-entering a key already on the stack throws: a folder below `key`
      whose id is identical to the key of an enclosing call (the workspace
      id, or an enclosing folder's id) makes `u` call itself with the same
      argument forever. */
  lemma {:induction false} ReentryThrows(res: seq<Json>, key: Val, entered: set<Val>, i: nat, count: nat, j: nat)
    requires i <= j < |res| && IsFolder(res[j]) && StrictEq(Parent(res[j]), key)
    requires Primitive(Id(res[j])) && Id(res[j]) in entered
    ensures WalkFrom(res, key, entered, i, count).Throw?
    decreases j - i
  {
    if i < j {
      if res[i] == JNull {
      } else if !StrictEq(Parent(res[i]), key) || !(IsFolder(res[i]) || IsRequest(res[i])) {
        ReentryThrows(res, key, entered, i + 1, count, j);
      } else if IsFolder(res[i]) {
        ReentryThrows(res, key, entered, i + 1, count, j);
      } else {
        ReentryThrows(res, key, entered, i + 1, count + 1, j);
      }
    }
  }

  /** A null element anywhere in the array throws: `u` filters the whole
      array on `parentId`, and reading a property of null is a TypeError. */
  lemma {:induction false} NullThrows(res: seq<Json>, key: Val, entered: set<Val>, i: nat, count: nat, j: nat)
    requires i <= j < |res| && res[j] == JNull
    ensures WalkFrom(res, key, entered, i, count).Throw?
    decreases j - i
  {
    if i < j && res[i] != JNull {
      if !StrictEq(Parent(res[i]), key) || !(IsFolder(res[i]) || IsRequest(res[i])) {
        NullThrows(res, key, entered, i + 1, count, j);
      } else if IsFolder(res[i]) {
        NullThrows(res, key, entered, i + 1, count, j);
      } else {
        NullThrows(res, key, entered, i + 1, count + 1, j);
      }
    }
  }

  /** A rank on ids that strictly falls from every folder's `parentId` to
      its `_id`: following folders down from any key never comes back to a
      key already entered. */
  predicate Ranked(res: seq<Json>, rank: Val -> nat) {
    forall j :: 0 <= j < |res| && IsFolder(res[j]) && Primitive(Id(res[j])) && Primitive(Parent(res[j])) ==>
      rank(Id(res[j])) < rank(Parent(res[j]))
  }

  /** The converse of `NullThrows` and `ReentryThrows`: with no null
      resource and folders ranked below their parents, the walk succeeds,
      provided every key on the stack ranks at least as high as `key`. */
  lemma {:induction false} WalkSucceeds(res: seq<Json>, key: Val, entered: set<Val>, i: nat, count: nat, rank: Val -> nat)
    requires i <= |res| && Ranked(res, rank)
    requires forall j :: 0 <= j < |res| ==> res[j] != JNull
    requires forall e :: e in entered ==> rank(key) <= rank(e)
    ensures WalkFrom(res, key, entered, i, count).Ok?
    decreases Keys(res) - entered, |res| - i
  {
    if i < |res| {
      if StrictEq(Parent(res[i]), key) && IsFolder(res[i]) {
        var child := Id(res[i]);
        assert child in Keys(res);
        if Primitive(child) {
          assert rank(child) < rank(key);
          WalkSucceeds(res, child, entered + {child}, 0, 0, rank);
        }
        WalkSucceeds(res, key, entered, i + 1, count, rank);
      } else if StrictEq(Parent(res[i]), key) && IsRequest(res[i]) {
        WalkSucceeds(res, key, entered, i + 1, count + 1, rank);
      } else {
        WalkSucceeds(res, key, entered, i + 1, count, rank);
      }
    }
  }

  /** The walk from a workspace id succeeds on a document without null
      resources whose folders are ranked below their parents. */
  lemma WalkFromRootSucceeds(res: seq<Json>, root: Val, rank: Val -> nat)
    requires Ranked(res, rank)
    requires forall j :: 0 <= j < |res| ==> res[j] != JNull
    ensures WalkFrom(res, root, {root}, 0, 0).Ok?
  {
    WalkSucceeds(res, root, {root}, 0, 0, rank);
  }
}

=== FILE: wrappers.dfy ===
/** Failure-compatible datatypes used throughout the importer model.
    - Option<T>: a value that may be absent.
    - Result<T>: the outcome of a JavaScript evaluation that either completes
      normally with a value or throws. The importer never catches what it
      throws, so the kind of exception is not recorded.
 */
module Wrappers {

  datatype Option<+T> = None | Some(value: T) {

    predicate IsFailure() {
      None?
    }

    function PropagateFailure<U>(): Option<U>
      requires None?
    {
      None
    }

    function Extract(): T
      requires Some?
    {
      value
    }
  }

  /** Normal completion with a value, or an exception that propagates. */
  datatype Result<+T> = Ok(value: T) | Throw {

    predicate IsFailure() {
      Throw?
    }

    function PropagateFailure<U>(): Result<U>
      requires Throw?
    {
      Throw
    }

    function Extract(): T
      requires Ok?
    {
      value
    }
  }

  /** Applies `f` to the elements in order, as Array.prototype.map does; an
      element whose evaluation throws makes the whole map throw. */
  function MapResult<S, T>(xs: seq<S>, f: S --> Result<T>): (r: Result<seq<T>>)
    requires forall i :: 0 <= i < |xs| ==> f.requires(xs[i])
    ensures r.Ok? <==> forall i :: 0 <= i < |xs| ==> f(xs[i]).Ok?
    ensures r.Ok? ==> |r.value| == |xs| && forall i :: 0 <= i < |xs| ==> f(xs[i]) == Ok(r.value[i])
  {
    if |xs| == 0 then Ok([])
    else
      var rest := MapResult(xs[1..], f);
      assert forall i :: 1 <= i < |xs| ==> xs[i] == xs[1..][i - 1];
      match f(xs[0])
      case Throw => Throw
      case Ok(y) =>
        match rest
        case Throw => Throw
        case Ok(ys) => Ok([y] + ys)
  }

  /** The map that succeeds with `ys` is the one whose callback gives the
      elements of `ys`. */
  lemma MapResultOk<S, T>(xs: seq<S>, f: S --> Result<T>, ys: seq<T>)
    requires forall i :: 0 <= i < |xs| ==> f.requires(xs[i])
    requires |ys| == |xs| && forall i :: 0 <= i < |xs| ==> f(xs[i]) == Ok(ys[i])
    ensures MapResult(xs, f) == Ok(ys)
  {
    var r := MapResult(xs, f);
    assert forall i :: 0 <= i < |xs| ==> f(xs[i]).Ok?;
    assert r.Ok? && |r.value| == |ys|;
    assert forall i :: 0 <= i < |xs| ==> r.value[i] == ys[i];
    assert r.value == ys;
  }
}
